=== FILE: README.md ===
# Survivor network media extraction, modelled in Dafny

The survivor network backend turns uploaded media (photos, recordings, text
notes) into nodes and edges of a survivor graph. This project models the pure
core of that path:

- **The extraction data model** (`extraction.dfy`, module `Extraction`):
  - the closed `EntityType` and `RelationshipType` vocabularies with their
    string values;
  - the `ExtractedEntity`, `ExtractedRelationship` and `ExtractionResult`
    records with their dataclass defaults;
  - their `to_dict` serialisers into JSON-like values.
- **The lenient reply decoder of the image extractor** (`image_extractor.dfy`,
  module `ImageExtraction`):
  - the reply is parsed directly, and only when that fails is a Markdown code
    fence stripped first;
  - each entity and relationship record is decoded, and a record with a
    missing key or an unknown type is skipped;
  - a record that is not a dict aborts the whole extraction;
  - the result is assembled with its defaults and the `image_size` metadata.
- **The pure part of the storage service** (`gcs_service.dfy`, module
  `GcsService`):
  - media classification by extension, then by guessed MIME type, then the
    text default;
  - the `media/{type}/{folder}/{uuid}_{name}` object layout and its
    `gs://{bucket}/` URI;
  - the way the download and read paths recover the object name with
    `str.replace` and choose the temporary file's suffix.

Supporting modules model the Python behaviour the core relies on, written out
explicitly:

- `str_ops.dfy` (`StrOps`): `str.strip` with the full `str.isspace` set,
  `startswith`, `in`, slicing with clamped indices, ASCII `lower`,
  replace-all `replace`, and decimal rendering of integers.
- `posix_path.dfy` (`PosixPath`): `rfind`, `os.path.basename` and
  `os.path.splitext`, including its rule that leading dots do not start an
  extension.
- `py_json.dfy` (`PyJson`): an abstract parsed-JSON value and `dict.get`.
- `wrappers.dfy` (`Wrappers`): `Option` and `Result`.

Exceptions become `Result` failures, as follows:

- `MalformedJson`: `json.loads` fails on both attempts.
- `DocumentNotObject`: the parsed document is not a dict, so `.get` raises
  `AttributeError`.
- `NotIterable`: the value under `entities` or `relationships` cannot be
  iterated.
- `RecordNotObject`: a record cannot be indexed by a key, so the
  `TypeError` escapes the per-record `except (ValueError, KeyError)`.

## Model

| member | source | states |
|---|---|---|
| Extraction.EntityTypeOf | backend/extractors/base_extractor.py:7-13 | `EntityType(s)` succeeds exactly for the six member values, and gives the member whose value is `s` |
| Extraction.RelationshipTypeOf | backend/extractors/base_extractor.py:15-21 | `RelationshipType(s)` succeeds exactly for the six member values, and gives the member whose value is `s` |
| Extraction.EntityValueInjective | backend/extractors/base_extractor.py:7-13 | the six entity type values are pairwise distinct, so a value names one member |
| Extraction.RelationshipValueInjective | backend/extractors/base_extractor.py:15-21 | the six relationship type values are pairwise distinct |
| Extraction.NewEntity | backend/extractors/base_extractor.py:23-37 | an entity built from a type and a name serialises with empty properties and confidence 1.0 |
| Extraction.NewRelationship | backend/extractors/base_extractor.py:39-55 | a relationship built from a type and its endpoints serialises with empty properties and confidence 1.0 |
| Extraction.EntityToDict | backend/extractors/base_extractor.py:31-37 | exactly four keys; the type is emitted as its string value and name, properties and confidence pass through unchanged |
| Extraction.RelationshipToDict | backend/extractors/base_extractor.py:48-55 | exactly five keys; the endpoint names are emitted under `source` and `target`, the rest pass through unchanged |
| Extraction.NewResult | backend/extractors/base_extractor.py:57-79 | a fresh result has no entities or relationships, empty raw content, summary and metadata, no broadcast info and the given creation time, and serialises accordingly |
| Extraction.EntitiesToDicts | backend/extractors/base_extractor.py:74 | the list comprehension keeps length and order and serialises element by element |
| Extraction.RelationshipsToDicts | backend/extractors/base_extractor.py:75 | the list comprehension keeps length and order and serialises element by element |
| Extraction.ResultToDict | backend/extractors/base_extractor.py:70-79 | exactly seven keys, without `raw_content` and `extracted_at`; the lists are serialised element-wise and every other field is copied |
| Extraction.ResultToDictIgnoresRawAndTime | backend/extractors/base_extractor.py:62-79 | changing the raw content or the extraction time does not change the serialised result |
| ImageExtraction.StripFence | backend/extractors/image_extractor.py:113-117 | after trimming, a tagged fence loses its first 7 and last 3 characters and a bare fence its first 3 and last 3, whatever those last characters are; a fenced text too short to hold a body gives `''`; unfenced text is only trimmed |
| ImageExtraction.TaggedFenceRoundTrip | backend/extractors/image_extractor.py:113-115 | a body in a fence tagged `json`, with any whitespace around it, comes back out exactly |
| ImageExtraction.BareFenceRoundTrip | backend/extractors/image_extractor.py:113-117 | a body in a bare fence comes back out exactly, unless the body itself begins with `json` |
| ImageExtraction.BareFenceNotTagged | backend/extractors/image_extractor.py:114-116 | a bare-fenced body not beginning with `json` does not take the tagged branch |
| ImageExtraction.ParseResponse | backend/extractors/image_extractor.py:109-118 | the direct parse wins when it succeeds; the fence-stripped text is parsed only when it fails; the call fails exactly when both parses fail |
| ImageExtraction.FencedResponseParses | backend/extractors/image_extractor.py:109-118 | a reply in a `json`-tagged fence that does not parse as a whole yields the document its body parses to |
| ImageExtraction.Records | backend/extractors/image_extractor.py:122-135 | iterating the value under `entities`/`relationships`: a list gives its items, an empty string or dict gives none, a non-empty string or dict raises `TypeError` at its first element, and a number, boolean or null is not iterable; the conversion can proceed exactly when the value is a list of dicts or an empty string or dict |
| ImageExtraction.DecodeEntity | backend/extractors/image_extractor.py:123-131 | a record is kept if and only if it has `entity_type` and `name` and the type is a valid value; a missing `properties` becomes `{}` and a missing `confidence` becomes 0.8 |
| ImageExtraction.DecodeRelationship | backend/extractors/image_extractor.py:136-145 | a record is kept if and only if it has `relationship_type`, `source` and `target` and the type is a valid value, with the same defaults |
| ImageExtraction.EntityRoundTrip | backend/extractors/image_extractor.py:124-129 | decoding a serialised entity gives back the same entity |
| ImageExtraction.RelationshipRoundTrip | backend/extractors/image_extractor.py:137-143 | decoding a serialised relationship gives back the same relationship |
| ImageExtraction.FilterMap | backend/extractors/image_extractor.py:121-131 | the skip-on-failure conversion never produces more entries than it reads |
| ImageExtraction.FilterMapSnoc | backend/extractors/image_extractor.py:122-131 | one more record extends the converted list by that record's decoding, if any |
| ImageExtraction.FilterMapPositions | backend/extractors/image_extractor.py:121-145 | the converted list is an order-preserving subsequence: its entries are the decodings of exactly the accepted records, at increasing positions |
| ImageExtraction.FilterMapAllKept | backend/extractors/image_extractor.py:121-131 | when every record decodes, the converted list is the list of decodings |
| ImageExtraction.ConvertRecords | backend/extractors/image_extractor.py:120-145 | the `for`/`try`/`continue` loop succeeds exactly when every element is a dict, and then returns the filtered conversion; otherwise it raises |
| ImageExtraction.ImageSize | backend/extractors/image_extractor.py:158 | `f"{width}x{height}"` is unpadded decimal digits, an `x`, and unpadded decimal digits; the two parts read back as the width and the height |
| ImageExtraction.ImageSizeReadable | backend/extractors/image_extractor.py:158 | `f"{width}x{height}"` holds exactly one `x`, and the digits on either side read back as the width and the height |
| ImageExtraction.ImageMetadata | backend/extractors/image_extractor.py:154-159 | exactly four keys; scene type and urgency default to null, location hints to `[]`, and the image size is recorded |
| ImageExtraction.DecodeDocument | backend/extractors/image_extractor.py:120-160 | a non-dict document raises; a dict document decodes exactly when each of `entities` and `relationships` is absent, a list of dicts, or an empty string or dict, and otherwise raises `TypeError`; on success the media type is `image`, a missing or non-list key gives an empty list, the lists are the filtered conversions, and summary and broadcast info take their `.get` defaults |
| ImageExtraction.Extract | backend/extractors/image_extractor.py:109-160 | the reply handling of `extract` either raises on unparseable text or agrees with the document decoder on the parsed document |
| ImageExtraction.DecodeSerialisedResult | backend/extractors/image_extractor.py:120-153 | decoding a serialised result recovers its entities, relationships, summary and broadcast info |
| ImageExtraction.EntityListRoundTrip | backend/extractors/image_extractor.py:121-131 | a serialised entity list is all dicts and converts back to itself |
| ImageExtraction.RelationshipListRoundTrip | backend/extractors/image_extractor.py:134-145 | a serialised relationship list is all dicts and converts back to itself |
| GcsService.FirstAccepted | backend/services/gcs_service.py:25-44 | the result is the first media type in the given order that is accepted, and none exactly when no type is accepted |
| GcsService.ExtensionMatch | backend/services/gcs_service.py:25-32 | an extension selects text exactly when it is a text extension, image exactly when it is an image but not a text extension, and so on down the order |
| GcsService.MimeMatch | backend/services/gcs_service.py:36-44 | a MIME type selects text exactly when it contains `text`, image exactly when it contains `image` but not `text`, and so on down the order |
| GcsService.DetectMediaType | backend/services/gcs_service.py:21-45 | an extension match in the order text, image, video, audio wins; otherwise the first MIME keyword match; otherwise text |
| GcsService.DetectIgnoresExtensionCase | backend/services/gcs_service.py:21-45 | two paths whose lower-cased extensions agree are classified alike when a configured set holds that extension, whatever MIME types are guessed for them, and also when their guesses are equal |
| GcsService.LowerSameExtension | backend/services/gcs_service.py:23 | writing a path's extension in lower case does not change the lower-cased extension that is looked up |
| GcsService.UpperCaseExtension | backend/services/gcs_service.py:21-45 | `stem.JPG` and `stem.jpg` are classified alike, whatever the stem, when the lower-cased extension is configured, and also when the two paths get the same MIME guess |
| GcsService.SurvivorFolder | backend/services/gcs_service.py:55 | the folder is the survivor id, or `unknown` when the id is missing or empty |
| GcsService.BlobName | backend/services/gcs_service.py:56 | the object name is `media/{type}/{folder}/` followed by exactly `len(uuid) + 1 + len(name)` characters, and its last component is `{uuid}_{name}` when neither contains `/` |
| GcsService.FolderHasNoSlash | backend/services/gcs_service.py:55 | the folder is a single path component when the id contains no `/` |
| GcsService.UriPrefix | backend/services/gcs_service.py:61 | the URI prefix begins with the scheme's `//` |
| GcsService.UploadBlobName | backend/services/gcs_service.py:52-56 | an upload's object name is its detected type and survivor folder followed by exactly the length of `{uuid}_{basename}`, and its last component is `{uuid}_{basename}` |
| GcsService.UploadFile | backend/services/gcs_service.py:47-64 | a missing file raises; otherwise the upload succeeds with the detected media type, and its URI is `gs://{bucket}/media/{type}/{folder}/` followed by exactly the length of `{uuid}_{basename}`, which is its last component when the id has no `/` |
| GcsService.UploadUriLayout | backend/services/gcs_service.py:56-61 | the object URI is the bucket, type and folder prefix followed by exactly the length of `{uuid}_{name}`, which is its last component |
| GcsService.UploadsDistinct | backend/verify_gcs_upload.py:17-33 | two uploads of the same file under different unique ids return different URIs |
| GcsService.ObjectUrisDistinct | backend/services/gcs_service.py:56-61 | one file name under two different unique ids gives two different object URIs |
| GcsService.BlobNameOf | backend/services/gcs_service.py:68 | a URI that does not contain the bucket's prefix passes through unchanged |
| GcsService.ObjectUri | backend/services/gcs_service.py:61-68 | the URI is the bucket prefix followed by the object name, and removing the prefix gives the name back unless the name itself contains the prefix |
| GcsService.TempSuffix | backend/services/gcs_service.py:72 | the suffix is the name's extension when there is one and `.tmp` otherwise; either way a non-empty dotted suffix |
| GcsService.DownloadToTemp | backend/services/gcs_service.py:66-78 | the download fetches the object named by the URI with the bucket prefix removed, into a file suffixed with that object name's extension, or `.tmp` when it has none |
| GcsService.ReadTextContent | backend/services/gcs_service.py:80-84 | the text read comes from the same object the download path would fetch |
| GcsService.BlobNameNoDoubleSlash | backend/services/gcs_service.py:56 | an object name built from non-empty components without `/` contains no `//` |
| GcsService.NoPrefixWithoutDoubleSlash | backend/services/gcs_service.py:68 | a string without `//` cannot contain a `gs://` prefix |
| GcsService.DownloadObjectUri | backend/services/gcs_service.py:61-72 | any object name without `//` is recovered from its URI by the download path |
| GcsService.DownloadBlobName | backend/services/gcs_service.py:56-68 | an object name laid out by the upload path is recovered from its URI by the download path |
| GcsService.UploadThenDownloadSameObject | backend/services/gcs_service.py:47-72 | the URI `upload_file` returns leads `download_to_temp` back to the object it uploaded, when the survivor id and the unique id contain no `/` and the type value is non-empty and contains no `/` |
| GcsService.DownloadKeepsExtension | backend/services/gcs_service.py:56-72 | when the unique id has no `.` and no `/`, as a `uuid4` string does not, the suffix rule applied to an uploaded object name keeps the uploaded file's extension, and gives `.tmp` for a name without a dot |
| GcsService.DownloadedSuffix | backend/services/gcs_service.py:56-74 | when the type value and the folder are non-empty and contain no `/`, and the unique id has no `.` and no `/`, downloading the URI of an uploaded object creates a temporary file with the uploaded file's extension, or `.tmp` for a name without a dot |
| GcsService.DotFileGainsSuffix | backend/services/gcs_service.py:56-72 | when the unique id has no `.` and no `/`, a dot file such as `.bashrc` has no extension, yet its uploaded object name gives the download suffix `.bashrc` |
| GcsService.DotFileBlobExt | backend/services/gcs_service.py:56-72 | the object name of an uploaded dot file has the dotted word as its extension |
| GcsService.DotFileItself | backend/services/gcs_service.py:56 | a dot file is its own base name and has no extension |
| StrOps.ContainsOccurs | backend/services/gcs_service.py:37-43 | the substring test `k in s` holds exactly when `k` occurs at some index of `s` |
| StrOps.StartsWith | backend/extractors/image_extractor.py:114-116 | `startswith` holds exactly when the prefix fits and agrees character by character, and then the text is the prefix followed by the rest |
| StrOps.TrimStart | backend/extractors/image_extractor.py:113 | `lstrip` removes a whitespace prefix and leaves no leading whitespace |
| StrOps.TrimEnd | backend/extractors/image_extractor.py:113 | `rstrip` removes a whitespace suffix and leaves no trailing whitespace |
| StrOps.Strip | backend/extractors/image_extractor.py:113 | the stripped text sits between a whitespace lead and a whitespace trail of the original, and neither starts nor ends with whitespace |
| StrOps.StripPadded | backend/extractors/image_extractor.py:113 | stripping removes exactly the whitespace padding around a core that is not itself padded |
| StrOps.ClampIndex | backend/extractors/image_extractor.py:115-117 | a slice bound within the string is kept, a negative one counts from the end, one past the end becomes the length and one before the start becomes 0 |
| StrOps.Slice | backend/extractors/image_extractor.py:115-117 | `s[a:-b]` is the middle of `s` when `a + b` fits, and `''` otherwise |
| StrOps.Lower | backend/services/gcs_service.py:23 | `lower` keeps the length and lower-cases each character on its own |
| StrOps.LowerKeepsAbsent | backend/services/gcs_service.py:23 | lower-casing introduces no separator or dot that was not there |
| StrOps.LowerAbsorbs | backend/services/gcs_service.py:23 | lower-casing a lowered tail again changes nothing |
| StrOps.ReplaceAll | backend/services/gcs_service.py:68 | `replace` leaves a string without the pattern unchanged |
| StrOps.ReplaceLeading | backend/services/gcs_service.py:68 | an occurrence at the very front is replaced first and the scan resumes right after it |
| StrOps.Decimal | backend/extractors/image_extractor.py:158 | an integer renders as a non-empty string of digits without a leading zero |
| StrOps.DecimalRoundTrip | backend/extractors/image_extractor.py:158 | reading a rendered integer back gives the integer |
| PosixPath.LastIndexOf | backend/services/gcs_service.py:23 | `rfind` gives the last index holding the character, or -1 when there is none |
| PosixPath.LastIndexUnique | backend/services/gcs_service.py:23 | the last-occurrence property determines the `rfind` result |
| PosixPath.LastIndexBeforeUnique | backend/services/gcs_service.py:23 | the last-occurrence property determines the bounded `rfind` result |
| PosixPath.Basename | backend/services/gcs_service.py:56 | the base name is the suffix of the path after its last `/`, and holds no `/` |
| PosixPath.ExtStart | backend/services/gcs_service.py:23 | `splitext` cuts at a dot of the last component that is preceded in that component by a non-dot and followed by no dot; when no dot qualifies, at the end, so a component of leading dots alone has no extension |
| PosixPath.SplitExt | backend/services/gcs_service.py:23 | root and extension concatenate to the path; the extension is one dot followed by no dot or `/`, and is empty exactly when no dot of the last component follows a non-dot in it |
| PosixPath.Ext | backend/services/gcs_service.py:23 | `splitext(p)[1]` is a suffix of the path, empty or a single dot followed by no dot or `/`, and empty exactly when no dot of the last component follows a non-dot in it |
| PosixPath.ExtStartUnique | backend/services/gcs_service.py:23 | the cut's characterisation determines it, so it is the only position `splitext` can cut at |
| PosixPath.ExtOfBasename | backend/services/gcs_service.py:72 | a path's extension is the extension of its last component |
| PosixPath.BasenameExtStart | backend/services/gcs_service.py:72 | `splitext` cuts the last component where it cuts the whole path |
| PosixPath.BasenameOfJoin | backend/services/gcs_service.py:56 | the last component of `dir/name` is `name` |
| PosixPath.ExtOfJoin | backend/services/gcs_service.py:72 | the extension of `dir/name` is the extension of `name` |
| PosixPath.ExtAt | backend/services/gcs_service.py:72 | the extension starts at the last dot when an ordinary character precedes it |
| PosixPath.ExtOfDotted | backend/services/gcs_service.py:23 | `stem.word` has extension `.word` when the stem ends in an ordinary character |
| PosixPath.ExtOfStemmed | backend/services/gcs_service.py:56-72 | putting `{uuid}_` in front of a name keeps its extension, and a name without a dot still has none |
| PyJson.Get | backend/extractors/image_extractor.py:127-128 | `dict.get` gives the stored value for a present key and the default otherwise |

## Left out

- Network and cloud I/O is not modelled:
  - the Gemini client call and the PIL image load;
  - the storage client, the upload and download transfers and `download_as_text`;
  - the temporary file's creation and removal.
  Their results are inputs: the reply text, the image width and height, and the bucket name.
- `json.loads` is the parameter `parse: string -> Option<Json>`. JSON syntax is not modelled.
- `mimetypes.guess_type` is the parameter `guess`, one per path, so two paths may be guessed differently (`mimetypes` reads encoding suffixes such as `.Z` case-sensitively). `uuid.uuid4()` is the parameter `uuid`. That two calls of `uuid.uuid4()` give different ids is not modelled; `GcsService.UploadsDistinct` takes it as its requirement.
- `datetime.utcnow()` is the parameter `now`.
- `backend/config/extraction_config.py` is not part of this model. The four extension sets are the `ExtensionConfig` input, and each media type's string value is the function `typeValue`.
- The logging in `upload_file` and in the `except` branch of `extract` is not modelled. The re-raise itself is modelled as the `Failure` result.
- The confidence values are floats. They are opaque `Json` numbers that are only defaulted and copied, never computed with.
- Dict key order is not modelled, because serialised dicts are maps.
- The hybrid search service imported by `verify_hybrid_search.py` is not part of this model.
- `backend/verify_gcs_upload.py` unpacks three values from `upload_file`, but the service returns two. The model follows the service's `(uri, media_type)`.
- StrOps.Lower: lower-cases ASCII letters only. Python's `str.lower` also maps non-ASCII upper-case letters.
- ImageExtraction.FilterMap: its own contract states only the length bound. The subsequence property is stated by `ImageExtraction.FilterMapPositions`.
- StrOps.ReplaceAll: its own contract states only the no-occurrence case. The case used by the download path is stated by `StrOps.ReplaceLeading`.

=== FILE: extraction.dfy ===
/** The extraction data model shared by every media extractor: the closed
    entity and relationship vocabularies of the survivor graph, the records an
    extractor produces, and their `to_dict` serialisation into JSON-like
    values. */
module Extraction {
  import opened Wrappers
  import opened PyJson

  /** The node tables of the survivor graph. */
  datatype EntityType = Survivor | Skill | Need | Resource | Biome | Broadcast {

    /** The enum member's string value. */
    function Value(): string {
      match this
      case Survivor => "Survivor"
      case Skill => "Skill"
      case Need => "Need"
      case Resource => "Resource"
      case Biome => "Biome"
      case Broadcast => "Broadcast"
    }
  }

  /** `EntityType(s)`: the member whose value is `s`, or `None` where Python
      raises `ValueError`. */
  function EntityTypeOf(s: string): (r: Option<EntityType>)
    ensures forall t: EntityType :: r == Some(t) <==> t.Value() == s
  {
    if s == "Survivor" then Some(Survivor)
    else if s == "Skill" then Some(Skill)
    else if s == "Need" then Some(Need)
    else if s == "Resource" then Some(Resource)
    else if s == "Biome" then Some(Biome)
    else if s == "Broadcast" then Some(Broadcast)
    else None
  }

  /** The edge tables of the survivor graph. */
  datatype RelationshipType = HasSkill | HasNeed | FoundResource | InBiome | CanHelp | Treats {

    /** The enum member's string value. */
    function Value(): string {
      match this
      case HasSkill => "SurvivorHasSkill"
      case HasNeed => "SurvivorHasNeed"
      case FoundResource => "SurvivorFoundResource"
      case InBiome => "SurvivorInBiome"
      case CanHelp => "SurvivorCanHelp"
      case Treats => "SkillTreatsNeed"
    }
  }

  /** `RelationshipType(s)`: the member whose value is `s`, or `None` where
      Python raises `ValueError`. */
  function RelationshipTypeOf(s: string): (r: Option<RelationshipType>)
    ensures forall t: RelationshipType :: r == Some(t) <==> t.Value() == s
  {
    if s == "SurvivorHasSkill" then Some(HasSkill)
    else if s == "SurvivorHasNeed" then Some(HasNeed)
    else if s == "SurvivorFoundResource" then Some(FoundResource)
    else if s == "SurvivorInBiome" then Some(InBiome)
    else if s == "SurvivorCanHelp" then Some(CanHelp)
    else if s == "SkillTreatsNeed" then Some(Treats)
    else None
  }

  /** Distinct entity types have distinct values, so a value names one member. */
  lemma EntityValueInjective(t: EntityType, u: EntityType)
    ensures t.Value() == u.Value() ==> t == u
  {
  }

  /** Distinct relationship types have distinct values. */
  lemma RelationshipValueInjective(t: RelationshipType, u: RelationshipType)
    ensures t.Value() == u.Value() ==> t == u
  {
  }

  /** The dataclass default for `confidence`. */
  const DefaultConfidence: Json := Num(1.0)

  /** The dataclass default for `properties`: a fresh empty dict. */
  const NoProperties: Json := Obj(map[])

  /** An extracted node. The dataclass annotations are not enforced at run
      time, so the name, properties and confidence hold whatever value the
      extractor copied in. */
  datatype ExtractedEntity = ExtractedEntity(
    entityType: EntityType,
    name: Json,
    properties: Json,
    confidence: Json)

  /** An extracted edge, naming its endpoints by entity name. */
  datatype ExtractedRelationship = ExtractedRelationship(
    relationshipType: RelationshipType,
    sourceName: Json,
    targetName: Json,
    properties: Json,
    confidence: Json)

  /** `ExtractedEntity(entity_type=t, name=name)`: the dataclass defaults fill
      the rest. */
  function NewEntity(t: EntityType, name: Json): (e: ExtractedEntity)
    ensures EntityToDict(e) == Obj(map[
      "entity_type" := Str(t.Value()), "name" := name,
      "properties" := Obj(map[]), "confidence" := Num(1.0)])
  {
    ExtractedEntity(t, name, NoProperties, DefaultConfidence)
  }

  /** `ExtractedRelationship(relationship_type=t, source_name=s, target_name=d)`. */
  function NewRelationship(t: RelationshipType, source: Json, target: Json): (r: ExtractedRelationship)
    ensures RelationshipToDict(r) == Obj(map[
      "relationship_type" := Str(t.Value()), "source" := source, "target" := target,
      "properties" := Obj(map[]), "confidence" := Num(1.0)])
  {
    ExtractedRelationship(t, source, target, NoProperties, DefaultConfidence)
  }

  /** `ExtractedEntity.to_dict`. */
  function EntityToDict(e: ExtractedEntity): (d: Json)
    ensures d.Obj? && d.fields.Keys == {"entity_type", "name", "properties", "confidence"}
    ensures d.fields["entity_type"] == Str(e.entityType.Value())
    ensures d.fields["name"] == e.name
    ensures d.fields["properties"] == e.properties
    ensures d.fields["confidence"] == e.confidence
  {
    Obj(map[
      "entity_type" := Str(e.entityType.Value()),
      "name" := e.name,
      "properties" := e.properties,
      "confidence" := e.confidence])
  }

  /** `ExtractedRelationship.to_dict`: the endpoint names are emitted under the
      keys `source` and `target`. */
  function RelationshipToDict(r: ExtractedRelationship): (d: Json)
    ensures d.Obj? && d.fields.Keys == {"relationship_type", "source", "target", "properties", "confidence"}
    ensures d.fields["relationship_type"] == Str(r.relationshipType.Value())
    ensures d.fields["source"] == r.sourceName
    ensures d.fields["target"] == r.targetName
    ensures d.fields["properties"] == r.properties
    ensures d.fields["confidence"] == r.confidence
  {
    Obj(map[
      "relationship_type" := Str(r.relationshipType.Value()),
      "source" := r.sourceName,
      "target" := r.targetName,
      "properties" := r.properties,
      "confidence" := r.confidence])
  }

  /** The moment an extraction result was created, as supplied by the caller
      in place of `datetime.utcnow()`. */
  type Timestamp = nat

  /** Everything one extractor run produced for one media object. */
  datatype ExtractionResult = ExtractionResult(
    mediaUri: string,
    mediaType: string,
    entities: seq<ExtractedEntity>,
    relationships: seq<ExtractedRelationship>,
    rawContent: string,
    summary: Json,
    broadcastInfo: Json,
    metadata: map<string, Json>,
    extractedAt: Timestamp)

  /** `ExtractionResult(media_uri=uri, media_type=mediaType)` created at `now`. */
  function NewResult(uri: string, mediaType: string, now: Timestamp): (r: ExtractionResult)
    ensures r.entities == [] && r.relationships == []
    ensures r.rawContent == "" && r.summary == Str("") && r.broadcastInfo == Null
    ensures r.metadata == map[] && r.extractedAt == now
    ensures ResultToDict(r) == Obj(map[
      "media_uri" := Str(uri), "media_type" := Str(mediaType),
      "entities" := Arr([]), "relationships" := Arr([]),
      "summary" := Str(""), "broadcast_info" := Null, "metadata" := Obj(map[])])
  {
    ExtractionResult(uri, mediaType, [], [], "", Str(""), Null, map[], now)
  }

  /** `[e.to_dict() for e in entities]`. */
  function EntitiesToDicts(es: seq<ExtractedEntity>): (ds: seq<Json>)
    ensures |ds| == |es|
    ensures forall i :: 0 <= i < |es| ==> ds[i] == EntityToDict(es[i])
  {
    if |es| == 0 then [] else [EntityToDict(es[0])] + EntitiesToDicts(es[1..])
  }

  /** `[r.to_dict() for r in relationships]`. */
  function RelationshipsToDicts(rs: seq<ExtractedRelationship>): (ds: seq<Json>)
    ensures |ds| == |rs|
    ensures forall i :: 0 <= i < |rs| ==> ds[i] == RelationshipToDict(rs[i])
  {
    if |rs| == 0 then [] else [RelationshipToDict(rs[0])] + RelationshipsToDicts(rs[1..])
  }

  /** `ExtractionResult.to_dict`: the entity and relationship lists are
      serialised element by element; `raw_content` and `extracted_at` are not
      emitted; the other fields are copied as they are. */
  function ResultToDict(r: ExtractionResult): (d: Json)
    ensures d.Obj?
    ensures d.fields.Keys == {"media_uri", "media_type", "entities", "relationships",
                              "summary", "broadcast_info", "metadata"}
    ensures d.fields["media_uri"] == Str(r.mediaUri)
    ensures d.fields["media_type"] == Str(r.mediaType)
    ensures d.fields["entities"].Arr? && |d.fields["entities"].items| == |r.entities|
    ensures forall i :: 0 <= i < |r.entities| ==>
              d.fields["entities"].items[i] == EntityToDict(r.entities[i])
    ensures d.fields["relationships"].Arr? && |d.fields["relationships"].items| == |r.relationships|
    ensures forall i :: 0 <= i < |r.relationships| ==>
              d.fields["relationships"].items[i] == RelationshipToDict(r.relationships[i])
    ensures d.fields["summary"] == r.summary
    ensures d.fields["broadcast_info"] == r.broadcastInfo
    ensures d.fields["metadata"] == Obj(r.metadata)
  {
    Obj(map[
      "media_uri" := Str(r.mediaUri),
      "media_type" := Str(r.mediaType),
      "entities" := Arr(EntitiesToDicts(r.entities)),
      "relationships" := Arr(RelationshipsToDicts(r.relationships)),
      "summary" := r.summary,
      "broadcast_info" := r.broadcastInfo,
      "metadata" := Obj(r.metadata)])
  }

  /** The serialised form does not depend on the raw content or the
      extraction time. */
  lemma ResultToDictIgnoresRawAndTime(r: ExtractionResult, raw: string, at: Timestamp)
    ensures ResultToDict(r.(rawContent := raw, extractedAt := at)) == ResultToDict(r)
  {
  }
}

=== FILE: gcs_service.dfy ===
/** The pure part of the media storage service: classifying a file by its
    extension or guessed MIME type, laying out the object name an upload is
    stored under, and recovering that name from the `gs://` URI on the way
    back. The storage client, the file system, `uuid.uuid4()` and
    `mimetypes.guess_type` are not modelled: their results are inputs. */
module GcsService {
  import opened Wrappers
  import opened StrOps
  import opened PosixPath

  /** The media categories uploads are filed under. */
  datatype MediaType = Text | Image | Video | Audio

  /** The extension sets of the extraction configuration, one per media type
      (dotted, lower-case). The configuration module is not part of this
      model, so its contents are an input. */
  datatype ExtensionConfig = ExtensionConfig(
    textExtensions: set<string>,
    imageExtensions: set<string>,
    videoExtensions: set<string>,
    audioExtensions: set<string>)

  /** The extensions configured for `t`. */
  function ExtensionsFor(cfg: ExtensionConfig, t: MediaType): set<string> {
    match t
    case Text => cfg.textExtensions
    case Image => cfg.imageExtensions
    case Video => cfg.videoExtensions
    case Audio => cfg.audioExtensions
  }

  /** The word looked for in a guessed MIME type for `t`. */
  function MimeKeyword(t: MediaType): string {
    match t
    case Text => "text"
    case Image => "image"
    case Video => "video"
    case Audio => "audio"
  }

  /** The order in which the media types are tried, extension and MIME alike. */
  const Precedence: seq<MediaType> := [Text, Image, Video, Audio]

  /** The first media type in `ts` that `accepts`, if any. */
  function FirstAccepted(ts: seq<MediaType>, accepts: MediaType -> bool): (r: Option<MediaType>)
    ensures r.Some? ==> r.value in ts && accepts(r.value)
    ensures r.Some? ==> exists k :: 0 <= k < |ts| && ts[k] == r.value &&
                          forall j :: 0 <= j < k ==> !accepts(ts[j])
    ensures r.None? <==> forall j :: 0 <= j < |ts| ==> !accepts(ts[j])
    decreases |ts|
  {
    if |ts| == 0 then None
    else if accepts(ts[0]) then Some(ts[0])
    else
      var r := FirstAccepted(ts[1..], accepts);
      assert forall j :: 1 <= j < |ts| ==> ts[j] == ts[1..][j - 1];
      r
  }

  /** The media type an extension selects: the first in precedence order
      whose configured set holds it. */
  function ExtensionMatch(cfg: ExtensionConfig, ext: string): (r: Option<MediaType>)
    ensures r == Some(Text) <==> ext in cfg.textExtensions
    ensures r == Some(Image) <==> ext !in cfg.textExtensions && ext in cfg.imageExtensions
    ensures r == Some(Video) <==>
      ext !in cfg.textExtensions && ext !in cfg.imageExtensions && ext in cfg.videoExtensions
    ensures r == Some(Audio) <==>
      ext !in cfg.textExtensions && ext !in cfg.imageExtensions && ext !in cfg.videoExtensions
      && ext in cfg.audioExtensions
  {
    FirstAccepted(Precedence, t => ext in ExtensionsFor(cfg, t))
  }

  /** The media type a MIME type selects: the first in precedence order whose
      keyword occurs in it. */
  function MimeMatch(mime: string): (r: Option<MediaType>)
    ensures r == Some(Text) <==> Contains(mime, "text")
    ensures r == Some(Image) <==> !Contains(mime, "text") && Contains(mime, "image")
    ensures r == Some(Video) <==>
      !Contains(mime, "text") && !Contains(mime, "image") && Contains(mime, "video")
    ensures r == Some(Audio) <==>
      !Contains(mime, "text") && !Contains(mime, "image") && !Contains(mime, "video")
      && Contains(mime, "audio")
  {
    FirstAccepted(Precedence, t => Contains(mime, MimeKeyword(t)))
  }

  /** `GCSService.detect_media_type`: the lower-cased extension is looked up in
      the configured sets; failing that the guessed MIME type is searched for
      the category words; failing that the file counts as text. */
  function DetectMediaType(cfg: ExtensionConfig, guess: Option<string>, path: string): (r: MediaType)
    ensures ExtensionMatch(cfg, Lower(Ext(path))).Some? ==> r == ExtensionMatch(cfg, Lower(Ext(path))).value
    ensures ExtensionMatch(cfg, Lower(Ext(path))).None? && guess.Some? && MimeMatch(guess.value).Some? ==>
              r == MimeMatch(guess.value).value
    ensures ExtensionMatch(cfg, Lower(Ext(path))).None? && (guess.None? || MimeMatch(guess.value).None?) ==>
              r == Text
  {
    var ext := Lower(Ext(path));
    if ext in cfg.textExtensions then Text
    else if ext in cfg.imageExtensions then Image
    else if ext in cfg.videoExtensions then Video
    else if ext in cfg.audioExtensions then Audio
    else
      match guess
      case Some(mime) =>
        if Contains(mime, "text") then Text
        else if Contains(mime, "image") then Image
        else if Contains(mime, "video") then Video
        else if Contains(mime, "audio") then Audio
        else Text
      case None => Text
  }

  /** Two paths whose extensions agree up to letter case are classified
      alike when a configured set holds that extension, whatever MIME types
      are guessed for them, and otherwise when the guesses agree. The guess
      is not case-blind: `mimetypes` reads encoding suffixes such as `.Z`
      case-sensitively, so the two paths may be guessed differently. */
  lemma DetectIgnoresExtensionCase(cfg: ExtensionConfig, guessP: Option<string>, guessQ: Option<string>,
                                   p: string, q: string)
    requires Lower(Ext(p)) == Lower(Ext(q))
    requires ExtensionMatch(cfg, Lower(Ext(p))).Some? || guessP == guessQ
    ensures DetectMediaType(cfg, guessP, p) == DetectMediaType(cfg, guessQ, q)
  {
  }

  /** Upper-case and lower-case spellings of the same extension are
      classified alike, whatever the rest of the path, when the extension is
      configured, or when the guessed MIME types agree. */
  lemma UpperCaseExtension(cfg: ExtensionConfig, guessUpper: Option<string>, guessLower: Option<string>,
                           stem: string, ext: string)
    requires '/' !in ext && '.' !in ext
    requires |stem| > 0 && stem[|stem| - 1] != '/' && stem[|stem| - 1] != '.'
    requires ExtensionMatch(cfg, Lower("." + ext)).Some? || guessUpper == guessLower
    ensures DetectMediaType(cfg, guessUpper, stem + "." + ext) ==
            DetectMediaType(cfg, guessLower, stem + "." + Lower(ext))
  {
    LowerSameExtension(stem, ext);
    ExtOfDotted(stem, ext);
    DetectIgnoresExtensionCase(cfg, guessUpper, guessLower, stem + "." + ext, stem + "." + Lower(ext));
  }

  /** Lower-casing the extension a path is written with does not change the
      lower-cased extension the classifier looks up. */
  lemma LowerSameExtension(stem: string, ext: string)
    requires '/' !in ext && '.' !in ext
    requires |stem| > 0 && stem[|stem| - 1] != '/' && stem[|stem| - 1] != '.'
    ensures Lower(Ext(stem + "." + ext)) == Lower(Ext(stem + "." + Lower(ext)))
  {
    var low := Lower(ext);
    LowerKeepsAbsent(ext, '/');
    LowerKeepsAbsent(ext, '.');
    ExtOfDotted(stem, ext);
    ExtOfDotted(stem, low);
    LowerAbsorbs(".", ext);
  }

  /** The per-survivor folder: the survivor id, or `unknown` when it is
      missing or empty (`survivor_id or "unknown"`). */
  function SurvivorFolder(survivorId: Option<string>): (folder: string)
    ensures |folder| > 0
    ensures survivorId.Some? && survivorId.value != "" ==> folder == survivorId.value
    ensures survivorId.None? || survivorId.value == "" ==> folder == "unknown"
  {
    match survivorId
    case Some(id) => if id != "" then id else "unknown"
    case None => "unknown"
  }

  /** `media/{type}/{folder}/{uuid}_{filename}`: the object sits in its type
      and survivor folder, and its last component is the unique id, `_` and
      the file's own name. */
  function BlobName(typeValue: string, folder: string, uuid: string, fileName: string): (blob: string)
    ensures StartsWith(blob, "media/" + typeValue + "/" + folder + "/")
    ensures |blob| == |"media/" + typeValue + "/" + folder + "/"| + |uuid| + 1 + |fileName|
    ensures '/' !in uuid && '/' !in fileName ==> Basename(blob) == uuid + "_" + fileName
  {
    var dir := "media/" + typeValue + "/" + folder;
    var leaf := uuid + "_" + fileName;
    var blob := dir + "/" + leaf;
    assert blob[..|dir| + 1] == dir + "/";
    assert '/' !in uuid && '/' !in fileName ==> Basename(blob) == leaf by {
      if '/' !in uuid && '/' !in fileName {
        assert '/' !in leaf;
        BasenameOfJoin(dir, leaf);
      }
    }
    blob
  }

  /** A survivor folder is a single path component when the id has no `/`. */
  lemma FolderHasNoSlash(survivorId: Option<string>)
    requires survivorId.Some? ==> '/' !in survivorId.value
    ensures '/' !in SurvivorFolder(survivorId)
  {
    var u := "unknown";
    forall i | 0 <= i < |u|
      ensures u[i] != '/'
    {
    }
  }

  /** `gs://{bucket}/`, the part of an object URI in front of its name. */
  function UriPrefix(bucket: string): (p: string)
    ensures |p| >= 6 && p[3] == '/' && p[4] == '/'
  {
    "gs://" + bucket + "/"
  }

  /** `gs://{bucket}/{blob}`: the bucket's prefix followed by the object name,
      which the download path's prefix removal gives back unless the name
      itself holds the prefix. */
  function ObjectUri(bucket: string, blob: string): (uri: string)
    ensures StartsWith(uri, UriPrefix(bucket)) && |uri| == |UriPrefix(bucket)| + |blob|
    ensures !Contains(blob, UriPrefix(bucket)) ==> BlobNameOf(bucket, uri) == blob
  {
    var uri := UriPrefix(bucket) + blob;
    ReplaceLeading(UriPrefix(bucket), blob, "");
    uri
  }

  /** The only way `upload_file` fails before reaching storage. */
  datatype UploadError = FileNotFound(path: string)

  /** What `upload_file` returns: the object URI and the detected media type. */
  datatype Upload = Upload(uri: string, mediaType: MediaType)

  /** The object name `upload_file` stores a file under. */
  function UploadBlobName(cfg: ExtensionConfig, typeValue: MediaType -> string, path: string,
                          guess: Option<string>, survivorId: Option<string>, uuid: string): (blob: string)
    ensures StartsWith(blob, "media/" + typeValue(DetectMediaType(cfg, guess, path)) + "/"
                             + SurvivorFolder(survivorId) + "/")
    ensures |blob| == |"media/" + typeValue(DetectMediaType(cfg, guess, path)) + "/"
                       + SurvivorFolder(survivorId) + "/"| + |uuid| + 1 + |Basename(path)|
    ensures '/' !in uuid ==> Basename(blob) == uuid + "_" + Basename(path)
  {
    BlobName(typeValue(DetectMediaType(cfg, guess, path)), SurvivorFolder(survivorId), uuid, Basename(path))
  }

  /** `GCSService.upload_file` without the transfer itself: a missing file
      raises; otherwise the file is filed under its detected media type and
      survivor folder with a fresh unique prefix, and addressed in the bucket. */
  function UploadFile(cfg: ExtensionConfig, typeValue: MediaType -> string, bucket: string,
                      fileExists: bool, path: string, guess: Option<string>,
                      survivorId: Option<string>, uuid: string): (r: Result<Upload, UploadError>)
    ensures !fileExists ==> r == Failure(FileNotFound(path))
    ensures fileExists ==> r.Success?
    ensures r.Success? ==> r.value.mediaType == DetectMediaType(cfg, guess, path)
    ensures r.Success? ==>
      StartsWith(r.value.uri, UriPrefix(bucket) + "media/" + typeValue(r.value.mediaType) + "/"
                              + SurvivorFolder(survivorId) + "/")
    ensures r.Success? ==>
      |r.value.uri| == |UriPrefix(bucket) + "media/" + typeValue(r.value.mediaType) + "/"
                        + SurvivorFolder(survivorId) + "/"| + |uuid| + 1 + |Basename(path)|
    ensures r.Success? && '/' !in uuid ==>
      Basename(r.value.uri) == uuid + "_" + Basename(path)
  {
    if !fileExists then Failure(FileNotFound(path))
    else
      var t := DetectMediaType(cfg, guess, path);
      var uri := ObjectUri(bucket, UploadBlobName(cfg, typeValue, path, guess, survivorId, uuid));
      UploadUriLayout(bucket, typeValue(t), SurvivorFolder(survivorId), uuid, Basename(path));
      Success(Upload(uri, t))
  }

  /** An object URI sits in its type and survivor folder and ends in the
      unique id and the file's own name. */
  lemma UploadUriLayout(bucket: string, typeValue: string, folder: string, uuid: string, name: string)
    ensures StartsWith(ObjectUri(bucket, BlobName(typeValue, folder, uuid, name)),
                       UriPrefix(bucket) + "media/" + typeValue + "/" + folder + "/")
    ensures |ObjectUri(bucket, BlobName(typeValue, folder, uuid, name))|
            == |UriPrefix(bucket) + "media/" + typeValue + "/" + folder + "/"| + |uuid| + 1 + |name|
    ensures '/' !in uuid && '/' !in name ==>
              Basename(ObjectUri(bucket, BlobName(typeValue, folder, uuid, name))) == uuid + "_" + name
  {
    var uri := ObjectUri(bucket, BlobName(typeValue, folder, uuid, name));
    var dir := UriPrefix(bucket) + "media/" + typeValue + "/" + folder;
    var leaf := uuid + "_" + name;
    assert uri == dir + "/" + leaf;
    assert uri[..|dir| + 1] == dir + "/";
    if '/' !in uuid && '/' !in name {
      assert '/' !in leaf;
      BasenameOfJoin(dir, leaf);
    }
  }

  /** `gcs_uri.replace(f"gs://{bucket}/", "")`: the object name the download
      and read paths use. Every occurrence of the prefix is removed, so a URI
      of another bucket passes through whole. */
  function BlobNameOf(bucket: string, uri: string): (blob: string)
    ensures !Contains(uri, UriPrefix(bucket)) ==> blob == uri
  {
    ReplaceAll(uri, UriPrefix(bucket), "")
  }

  /** Where `download_to_temp` puts an object: its name in the bucket and the
      suffix of the temporary file. */
  datatype TempDownload = TempDownload(blobName: string, suffix: string)

  /** The temporary file's suffix: the object name's extension, or `.tmp`
      when it has none. Either way it is a non-empty dotted suffix. */
  function TempSuffix(blob: string): (suffix: string)
    ensures |suffix| > 0 && suffix[0] == '.'
    ensures Ext(blob) != "" ==> suffix == Ext(blob)
    ensures Ext(blob) == "" ==> suffix == ".tmp"
  {
    var ext := Ext(blob);
    if ext != "" then ext else ".tmp"
  }

  /** `GCSService.download_to_temp` without the transfer itself. */
  function DownloadToTemp(bucket: string, uri: string): (d: TempDownload)
    ensures d.blobName == BlobNameOf(bucket, uri)
    ensures |d.suffix| > 0 && d.suffix[0] == '.'
    ensures Ext(d.blobName) != "" ==> d.suffix == Ext(d.blobName)
    ensures Ext(d.blobName) == "" ==> d.suffix == ".tmp"
  {
    var blob := BlobNameOf(bucket, uri);
    TempDownload(blob, TempSuffix(blob))
  }

  /** `GCSService.read_text_content` without the transfer itself: the object
      it reads is the one `download_to_temp` would fetch. */
  function ReadTextContent(bucket: string, uri: string): (blob: string)
    ensures blob == DownloadToTemp(bucket, uri).blobName
    ensures !Contains(uri, UriPrefix(bucket)) ==> blob == uri
  {
    BlobNameOf(bucket, uri)
  }

  /** No two consecutive `/` in `s`. */
  ghost predicate NoDoubleSlash(s: string) {
    forall i :: 0 <= i < |s| - 1 ==> s[i] != '/' || s[i + 1] != '/'
  }

  /** Joining two components that neither start nor end with `/` by a single
      `/` creates no `//`. */
  lemma JoinNoDoubleSlash(a: string, b: string)
    requires NoDoubleSlash(a) && NoDoubleSlash(b)
    requires |a| > 0 && a[|a| - 1] != '/'
    requires |b| > 0 && b[0] != '/'
    ensures NoDoubleSlash(a + "/" + b)
  {
    var s := a + "/" + b;
    forall i | 0 <= i < |s| - 1
      ensures s[i] != '/' || s[i + 1] != '/'
    {
      if i < |a| - 1 {
        assert s[i] == a[i] && s[i + 1] == a[i + 1];
      } else if i == |a| - 1 {
        assert s[i] == a[|a| - 1];
      } else if i == |a| {
        assert s[i + 1] == b[0];
      } else {
        assert s[i] == b[i - |a| - 1] && s[i + 1] == b[i - |a|];
      }
    }
  }

  /** An object name built from non-empty components without `/` has no `//`. */
  lemma BlobNameNoDoubleSlash(typeValue: string, folder: string, uuid: string, fileName: string)
    requires |typeValue| > 0 && |folder| > 0
    requires '/' !in typeValue && '/' !in folder && '/' !in uuid && '/' !in fileName
    ensures NoDoubleSlash(BlobName(typeValue, folder, uuid, fileName))
  {
    var leaf := uuid + "_" + fileName;
    assert '/' !in leaf;
    var a := "media" + "/" + typeValue;
    JoinNoDoubleSlash("media", typeValue);
    var b := a + "/" + folder;
    JoinNoDoubleSlash(a, folder);
    assert leaf[0] != '/' by {
      assert leaf[0] in leaf;
    }
    JoinNoDoubleSlash(b, leaf);
    BlobNameJoin(typeValue, folder, uuid, fileName);
  }

  /** An object name is its folder path and its last component joined by `/`. */
  lemma BlobNameJoin(typeValue: string, folder: string, uuid: string, fileName: string)
    ensures BlobName(typeValue, folder, uuid, fileName)
            == ("media" + "/" + typeValue + "/" + folder) + "/" + (uuid + "_" + fileName)
  {
  }

  /** A string without `//` cannot contain a bucket's URI prefix. */
  lemma NoPrefixWithoutDoubleSlash(bucket: string, s: string)
    requires NoDoubleSlash(s)
    ensures !Contains(s, UriPrefix(bucket))
  {
    var p := UriPrefix(bucket);
    ContainsOccurs(s, p);
  }

  /** Uploading and then downloading agree on the object: the URI
      `upload_file` returns leads the download path back to the same object
      name, provided the survivor id, the unique id and the media type's
      value contain no `/`. */
  lemma UploadThenDownloadSameObject(cfg: ExtensionConfig, typeValue: MediaType -> string, bucket: string,
                                     path: string, guess: Option<string>, survivorId: Option<string>,
                                     uuid: string)
    requires survivorId.Some? ==> '/' !in survivorId.value
    requires '/' !in uuid
    requires |typeValue(DetectMediaType(cfg, guess, path))| > 0
    requires '/' !in typeValue(DetectMediaType(cfg, guess, path))
    ensures var r := UploadFile(cfg, typeValue, bucket, true, path, guess, survivorId, uuid);
            && r.Success?
            && DownloadToTemp(bucket, r.value.uri).blobName
               == UploadBlobName(cfg, typeValue, path, guess, survivorId, uuid)
  {
    var t := DetectMediaType(cfg, guess, path);
    var folder := SurvivorFolder(survivorId);
    var name := Basename(path);
    UploadedAt(cfg, typeValue, bucket, path, guess, survivorId, uuid);
    FolderHasNoSlash(survivorId);
    DownloadBlobName(bucket, typeValue(t), folder, uuid, name);
  }

  /** The download path recovers an object name built from components without `/`. */
  lemma DownloadBlobName(bucket: string, typeValue: string, folder: string, uuid: string, fileName: string)
    requires |typeValue| > 0 && |folder| > 0
    requires '/' !in typeValue && '/' !in folder && '/' !in uuid && '/' !in fileName
    ensures DownloadToTemp(bucket, ObjectUri(bucket, BlobName(typeValue, folder, uuid, fileName))).blobName
            == BlobName(typeValue, folder, uuid, fileName)
  {
    BlobNameNoDoubleSlash(typeValue, folder, uuid, fileName);
    DownloadObjectUri(bucket, BlobName(typeValue, folder, uuid, fileName));
  }

  /** The download path recovers any object name without `//` from its URI. */
  lemma DownloadObjectUri(bucket: string, blob: string)
    requires NoDoubleSlash(blob)
    ensures DownloadToTemp(bucket, ObjectUri(bucket, blob)).blobName == blob
  {
    NoPrefixWithoutDoubleSlash(bucket, blob);
  }

  /** An existing file is uploaded to the object URI of its blob name. */
  lemma UploadedAt(cfg: ExtensionConfig, typeValue: MediaType -> string, bucket: string,
                   path: string, guess: Option<string>, survivorId: Option<string>, uuid: string)
    ensures UploadFile(cfg, typeValue, bucket, true, path, guess, survivorId, uuid)
            == Success(Upload(ObjectUri(bucket, UploadBlobName(cfg, typeValue, path, guess, survivorId, uuid)),
                              DetectMediaType(cfg, guess, path)))
  {
  }

  /** The temporary file of a downloaded upload keeps the uploaded file's
      extension; a file whose name has no dot gets `.tmp`. */
  lemma DownloadKeepsExtension(typeValue: string, folder: string, uuid: string, path: string)
    requires '/' !in uuid && '.' !in uuid
    ensures Ext(path) != "" ==>
              TempSuffix(BlobName(typeValue, folder, uuid, Basename(path))) == Ext(path)
    ensures '.' !in Basename(path) ==>
              TempSuffix(BlobName(typeValue, folder, uuid, Basename(path))) == ".tmp"
  {
    var name := Basename(path);
    var dir := "media/" + typeValue + "/" + folder;
    var leaf := uuid + ['_'] + name;
    assert BlobName(typeValue, folder, uuid, name) == dir + "/" + leaf;
    ExtOfJoin(dir, leaf);
    ExtOfBasename(path);
    ExtOfStemmed(uuid, '_', name);
  }

  /** The download of an uploaded object gets the uploaded file's extension
      as its temporary suffix, or `.tmp` when the file's name has no dot,
      provided the type value and the folder are single non-empty components
      and the unique id has neither `/` nor `.`. */
  lemma DownloadedSuffix(bucket: string, typeValue: string, folder: string, uuid: string, path: string)
    requires |typeValue| > 0 && |folder| > 0
    requires '/' !in typeValue && '/' !in folder
    requires '/' !in uuid && '.' !in uuid
    ensures var d := DownloadToTemp(bucket, ObjectUri(bucket, BlobName(typeValue, folder, uuid, Basename(path))));
            && (Ext(path) != "" ==> d.suffix == Ext(path))
            && ('.' !in Basename(path) ==> d.suffix == ".tmp")
  {
    DownloadBlobName(bucket, typeValue, folder, uuid, Basename(path));
    DownloadKeepsExtension(typeValue, folder, uuid, path);
  }

  /** Two uploads of the same file under different unique ids are stored
      under different object URIs. */
  lemma UploadsDistinct(cfg: ExtensionConfig, typeValue: MediaType -> string, bucket: string,
                        path: string, guess: Option<string>, survivorId: Option<string>,
                        uuid1: string, uuid2: string)
    requires uuid1 != uuid2
    ensures var r1 := UploadFile(cfg, typeValue, bucket, true, path, guess, survivorId, uuid1);
            var r2 := UploadFile(cfg, typeValue, bucket, true, path, guess, survivorId, uuid2);
            r1.Success? && r2.Success? && r1.value.uri != r2.value.uri
  {
    UploadedAt(cfg, typeValue, bucket, path, guess, survivorId, uuid1);
    UploadedAt(cfg, typeValue, bucket, path, guess, survivorId, uuid2);
    ObjectUrisDistinct(bucket, typeValue(DetectMediaType(cfg, guess, path)), SurvivorFolder(survivorId),
                       uuid1, uuid2, Basename(path));
  }

  /** The object URIs of one file name under two different unique ids differ. */
  lemma ObjectUrisDistinct(bucket: string, typeValue: string, folder: string,
                           uuid1: string, uuid2: string, fileName: string)
    requires uuid1 != uuid2
    ensures ObjectUri(bucket, BlobName(typeValue, folder, uuid1, fileName))
            != ObjectUri(bucket, BlobName(typeValue, folder, uuid2, fileName))
  {
    var dir := "media/" + typeValue + "/" + folder + "/";
    var tail := "_" + fileName;
    var blob1 := BlobName(typeValue, folder, uuid1, fileName);
    var blob2 := BlobName(typeValue, folder, uuid2, fileName);
    assert blob1 != blob2 by {
      LeafDistinct(dir, uuid1, uuid2, tail);
      assert blob1 == dir + uuid1 + tail;
      assert blob2 == dir + uuid2 + tail;
    }
    var prefix := UriPrefix(bucket);
    assert (prefix + blob1)[|prefix|..] == blob1;
    assert (prefix + blob2)[|prefix|..] == blob2;
  }

  /** Different middles between the same prefix and suffix give different strings. */
  lemma LeafDistinct(dir: string, a: string, b: string, tail: string)
    requires a != b
    ensures dir + a + tail != dir + b + tail
  {
    if |a| == |b| {
      var i :| 0 <= i < |a| && a[i] != b[i];
      assert (dir + a + tail)[|dir| + i] == a[i];
      assert (dir + b + tail)[|dir| + i] == b[i];
    } else {
      assert |dir + a + tail| != |dir + b + tail|;
    }
  }

  /** A dot file has no extension of its own, yet its uploaded copy does: the
      unique prefix in front of the name makes the leading dot count. */
  lemma DotFileGainsSuffix(typeValue: string, folder: string, uuid: string, word: string)
    requires '/' !in uuid && '.' !in uuid
    requires |word| > 0 && '/' !in word && '.' !in word
    ensures Ext("." + word) == ""
    ensures TempSuffix(BlobName(typeValue, folder, uuid, Basename("." + word))) == "." + word
  {
    DotFileItself(word);
    DotFileBlobExt(typeValue, folder, uuid, word);
  }

  /** The object name of an uploaded dot file ends in the dotted word. */
  lemma DotFileBlobExt(typeValue: string, folder: string, uuid: string, word: string)
    requires '/' !in uuid && '.' !in uuid
    requires |word| > 0 && '/' !in word && '.' !in word
    ensures Ext(BlobName(typeValue, folder, uuid, "." + word)) == "." + word
  {
    var dir := "media/" + typeValue + "/" + folder;
    var stem := uuid + "_";
    var leaf := stem + "." + word;
    assert BlobName(typeValue, folder, uuid, "." + word) == dir + "/" + leaf;
    assert Ext(leaf) == "." + word by {
      ExtOfDotted(stem, word);
    }
    assert Ext(dir + "/" + leaf) == Ext(leaf) by {
      assert '/' !in leaf;
      ExtOfJoin(dir, leaf);
    }
  }

  /** A dot file is its own last component and has no extension. */
  lemma DotFileItself(word: string)
    requires '/' !in word && '.' !in word
    ensures Basename("." + word) == "." + word
    ensures Ext("." + word) == ""
  {
    var p := "." + word;
    LastIndexUnique(p, '.', 0);
    LastIndexUnique(p, '/', -1);
  }
}

=== FILE: image_extractor.dfy ===
/** The response-handling half of the image extractor: recovering the JSON
    document from the vision model's reply (tolerating a Markdown code fence),
    converting its loosely typed entity and relationship records into typed
    ones while skipping the malformed ones, and assembling the extraction
    result. Downloading the image and calling the model are not modelled: the
    reply text, the JSON parser and the image dimensions are inputs. */
module ImageExtraction {
  import opened Wrappers
  import opened PyJson
  import opened StrOps
  import opened Extraction

  /** The exceptions that escape the decoding and are re-raised by `extract`. */
  datatype ExtractError =
    | MalformedJson      // `json.JSONDecodeError` from the second parse
    | DocumentNotObject  // `AttributeError`: the document has no `.get`
    | NotIterable        // `TypeError`: `entities`/`relationships` is a number, bool or null
    | RecordNotObject    // `TypeError`: a list element cannot be indexed by a key

  /** The opening fence of a code block tagged as JSON. */
  const TaggedFence: string := "```json"

  /** A bare fence, which also closes every block. */
  const Fence: string := "```"

  /** The fallback applied to a reply that is not JSON as it stands: trim the
      whitespace, then cut a tagged opening fence (7 characters) or else a
      bare one (3 characters), together with the last 3 characters whatever
      they are. Slicing never fails, so a fenced reply too short to hold a
      body gives `""`. */
  function StripFence(text: string): (r: string)
    ensures |r| <= |text|
    ensures !StartsWith(Strip(text), Fence) ==> r == Strip(text)
    ensures StartsWith(Strip(text), Fence) && |Strip(text)| <= 6 ==> r == ""
    ensures StartsWith(Strip(text), TaggedFence) && |Strip(text)| <= 10 ==> r == ""
    ensures var t := Strip(text);
            StartsWith(t, TaggedFence) && |t| >= 10 ==> r == t[7..|t| - 3]
    ensures var t := Strip(text);
            StartsWith(t, Fence) && !StartsWith(t, TaggedFence) && |t| >= 6 ==> r == t[3..|t| - 3]
  {
    CutFence(Strip(text))
  }

  /** The fence cut on already trimmed text. */
  function CutFence(t: string): (r: string)
    ensures |r| <= |t|
    ensures !StartsWith(t, Fence) ==> r == t
    ensures StartsWith(t, Fence) && |t| <= 6 ==> r == ""
    ensures StartsWith(t, TaggedFence) && |t| <= 10 ==> r == ""
    ensures StartsWith(t, TaggedFence) && |t| >= 10 ==> r == t[7..|t| - 3]
    ensures StartsWith(t, Fence) && !StartsWith(t, TaggedFence) && |t| >= 6 ==> r == t[3..|t| - 3]
  {
    TaggedIsFenced(t);
    if StartsWith(t, TaggedFence) then Slice(t, 7, -3)
    else if StartsWith(t, Fence) then Slice(t, 3, -3)
    else t
  }

  /** A text opening with the tagged fence opens with a bare fence too. */
  lemma TaggedIsFenced(t: string)
    ensures StartsWith(t, TaggedFence) ==> StartsWith(t, Fence)
  {
    if StartsWith(t, TaggedFence) {
      assert t[..3] == TaggedFence[..3];
    }
  }

  /** A body wrapped in a JSON-tagged fence, with any whitespace around it,
      comes back out unchanged. */
  lemma TaggedFenceRoundTrip(lead: string, body: string, trail: string)
    requires AllSpace(lead) && AllSpace(trail)
    ensures StripFence(lead + TaggedFence + body + Fence + trail) == body
  {
    var t := TaggedFence + body + Fence;
    var text := lead + TaggedFence + body + Fence + trail;
    assert text == lead + t + trail;
    assert t[0] == '`' && t[|t| - 1] == '`';
    StripPadded(lead, t, trail);
    TaggedBlockFence(text, body);
  }

  /** Once trimmed to a tagged block, the text yields the block's body. */
  lemma TaggedBlockFence(text: string, body: string)
    requires Strip(text) == TaggedFence + body + Fence
    ensures StripFence(text) == body
  {
    var t := TaggedFence + body + Fence;
    assert t[..7] == TaggedFence;
    TaggedBlockSlice(body);
  }

  /** A bare-fenced body that does not begin with `json` does not look like a
      tagged block. */
  lemma BareFenceNotTagged(body: string)
    requires !StartsWith(body, "json")
    ensures !StartsWith(Fence + body + Fence, TaggedFence)
  {
    var t := Fence + body + Fence;
    if |t| >= 7 {
      if |body| >= 4 {
        assert t[..7][3..7] == body[..4];
        assert TaggedFence[3..7] == "json";
      } else {
        assert t[..7][3 + |body|] == '`';
        assert TaggedFence[3 + |body|] != '`';
      }
    }
  }

  /** Cutting 3 characters off each end of a bare-fenced block leaves the body. */
  lemma BareBlockSlice(body: string)
    ensures Slice(Fence + body + Fence, 3, -3) == body
  {
    var t := Fence + body + Fence;
    assert t[3..|t| - 3] == body;
  }

  /** Cutting the tagged opening fence and the closing fence leaves the body. */
  lemma TaggedBlockSlice(body: string)
    ensures Slice(TaggedFence + body + Fence, 7, -3) == body
  {
    var t := TaggedFence + body + Fence;
    assert t[7..|t| - 3] == body;
  }

  /** A body wrapped in a bare fence comes back out unchanged, unless the body
      itself begins with `json`, in which case the tagged rule applies. */
  lemma BareFenceRoundTrip(lead: string, body: string, trail: string)
    requires AllSpace(lead) && AllSpace(trail)
    requires !StartsWith(body, "json")
    ensures StripFence(lead + Fence + body + Fence + trail) == body
  {
    var t := Fence + body + Fence;
    var text := lead + Fence + body + Fence + trail;
    assert text == lead + t + trail;
    assert t[0] == '`' && t[|t| - 1] == '`';
    StripPadded(lead, t, trail);
    BareBlockFence(text, body);
  }

  /** Once trimmed to a bare-fenced block, the text yields the block's body. */
  lemma BareBlockFence(text: string, body: string)
    requires Strip(text) == Fence + body + Fence
    requires !StartsWith(body, "json")
    ensures StripFence(text) == body
  {
    var t := Fence + body + Fence;
    BareFenceNotTagged(body);
    assert t[..3] == Fence;
    BareBlockSlice(body);
  }

  /** `json.loads(response.text)`, falling back to the fence-stripped text
      only when the reply does not parse as it stands. */
  function ParseResponse(text: string, parse: string -> Option<Json>): (r: Result<Json, ExtractError>)
    ensures parse(text).Some? ==> r == Success(parse(text).value)
    ensures parse(text).None? && parse(StripFence(text)).Some? ==> r == Success(parse(StripFence(text)).value)
    ensures r.Failure? <==> parse(text).None? && parse(StripFence(text)).None?
    ensures r.Failure? ==> r.error == MalformedJson
  {
    match parse(text)
    case Some(doc) => Success(doc)
    case None =>
      match parse(StripFence(text))
      case Some(doc) => Success(doc)
      case None => Failure(MalformedJson)
  }

  /** A fenced reply that does not parse as a whole is decoded from its body. */
  lemma FencedResponseParses(lead: string, body: string, trail: string,
                             parse: string -> Option<Json>, doc: Json)
    requires AllSpace(lead) && AllSpace(trail)
    requires parse(lead + TaggedFence + body + Fence + trail).None?
    requires parse(body) == Some(doc)
    ensures ParseResponse(lead + TaggedFence + body + Fence + trail, parse) == Success(doc)
  {
    TaggedFenceRoundTrip(lead, body, trail);
  }

  /** Iterating the value found under `entities` or `relationships`: a list
      gives its elements; an empty string or dict gives nothing; a non-empty
      string or dict gives strings, and the first one fails when it is indexed
      by a key; a number, a boolean or null cannot be iterated at all. */
  function Records(v: Json): (r: Result<seq<Json>, ExtractError>)
    ensures v.Arr? ==> r == Success(v.items)
    ensures (v.Str? && |v.s| == 0) || (v.Obj? && |v.fields| == 0) ==> r == Success([])
    ensures (v.Str? && |v.s| > 0) || (v.Obj? && |v.fields| > 0) ==> r == Failure(RecordNotObject)
    ensures (v.Null? || v.Bool? || v.Num?) ==> r == Failure(NotIterable)
    ensures r.Success? && AllRecords(r.value) <==> RecordSource(v)
  {
    match v
    case Arr(items) => Success(items)
    case Str(s) => if |s| == 0 then Success([]) else Failure(RecordNotObject)
    case Obj(m) => if |m| == 0 then Success([]) else Failure(RecordNotObject)
    case _ => Failure(NotIterable)
  }

  /** Every element of a record list is a dict, so none raises `TypeError`. */
  predicate AllRecords(items: seq<Json>) {
    forall i :: 0 <= i < |items| ==> items[i].Obj?
  }

  /** A value the conversion loop can walk without raising: a list of dicts,
      or an empty string or dict, which holds no records at all. */
  predicate RecordSource(v: Json) {
    || (v.Arr? && AllRecords(v.items))
    || (v.Str? && |v.s| == 0)
    || (v.Obj? && |v.fields| == 0)
  }

  /** The confidence the decoder assigns when a record gives none. */
  const FallbackConfidence: Json := Num(0.8)

  /** One entity record: kept exactly when it has an `entity_type` naming an
      entity type and a `name`; a missing key (`KeyError`) or an unknown type
      (`ValueError`) skips it. Missing properties become an empty dict and a
      missing confidence becomes 0.8. */
  function DecodeEntity(v: Json): (r: Option<ExtractedEntity>)
    ensures r.Some? <==>
      && v.Obj? && "entity_type" in v.fields && "name" in v.fields
      && v.fields["entity_type"].Str?
      && EntityTypeOf(v.fields["entity_type"].s).Some?
    ensures r.Some? ==>
      && Str(r.value.entityType.Value()) == v.fields["entity_type"]
      && r.value.name == v.fields["name"]
      && r.value.properties == (if "properties" in v.fields then v.fields["properties"] else Obj(map[]))
      && r.value.confidence == (if "confidence" in v.fields then v.fields["confidence"] else Num(0.8))
  {
    if !v.Obj? || "entity_type" !in v.fields || "name" !in v.fields then None
    else
      var f := v.fields;
      match f["entity_type"]
      case Str(s) =>
        (match EntityTypeOf(s)
         case Some(t) =>
           Some(ExtractedEntity(t, f["name"], Get(f, "properties", NoProperties),
                                Get(f, "confidence", FallbackConfidence)))
         case None => None)
      case _ => None
  }

  /** One relationship record: kept exactly when it has a `relationship_type`
      naming a relationship type, a `source` and a `target`. */
  function DecodeRelationship(v: Json): (r: Option<ExtractedRelationship>)
    ensures r.Some? <==>
      && v.Obj? && "relationship_type" in v.fields
      && "source" in v.fields && "target" in v.fields
      && v.fields["relationship_type"].Str?
      && RelationshipTypeOf(v.fields["relationship_type"].s).Some?
    ensures r.Some? ==>
      && Str(r.value.relationshipType.Value()) == v.fields["relationship_type"]
      && r.value.sourceName == v.fields["source"]
      && r.value.targetName == v.fields["target"]
      && r.value.properties == (if "properties" in v.fields then v.fields["properties"] else Obj(map[]))
      && r.value.confidence == (if "confidence" in v.fields then v.fields["confidence"] else Num(0.8))
  {
    if !v.Obj? || "relationship_type" !in v.fields || "source" !in v.fields || "target" !in v.fields then None
    else
      var f := v.fields;
      match f["relationship_type"]
      case Str(s) =>
        (match RelationshipTypeOf(s)
         case Some(t) =>
           Some(ExtractedRelationship(t, f["source"], f["target"], Get(f, "properties", NoProperties),
                                      Get(f, "confidence", FallbackConfidence)))
         case None => None)
      case _ => None
  }

  /** A serialised entity decodes back to the same entity. */
  lemma EntityRoundTrip(e: ExtractedEntity)
    ensures DecodeEntity(EntityToDict(e)) == Some(e)
  {
  }

  /** A serialised relationship decodes back to the same relationship: the
      keys `to_dict` writes are the keys the decoder reads. */
  lemma RelationshipRoundTrip(r: ExtractedRelationship)
    ensures DecodeRelationship(RelationshipToDict(r)) == Some(r)
  {
  }

  /** The decoded values of the elements `decode` accepts, in input order:
      the declarative reading of a `for ... try ... except: continue` loop. */
  function FilterMap<A, B>(decode: A -> Option<B>, xs: seq<A>): (ys: seq<B>)
    ensures |ys| <= |xs|
    decreases |xs|
  {
    if |xs| == 0 then []
    else
      (match decode(xs[0]) case Some(y) => [y] case None => []) + FilterMap(decode, xs[1..])
  }

  /** Filtering a list extended by one element extends the filtered list by
      that element's decoding, if any. */
  lemma {:induction false} FilterMapSnoc<A, B>(decode: A -> Option<B>, xs: seq<A>, x: A)
    ensures FilterMap(decode, xs + [x]) ==
            FilterMap(decode, xs) + (match decode(x) case Some(y) => [y] case None => [])
    decreases |xs|
  {
    if |xs| > 0 {
      assert (xs + [x])[1..] == xs[1..] + [x];
      FilterMapSnoc(decode, xs[1..], x);
    } else {
      assert xs + [x] == [x];
    }
  }

  /** Position `idx[k]` of `xs` decodes to `ys[k]`, for every `k`. */
  ghost predicate DecodesAt<A, B>(decode: A -> Option<B>, xs: seq<A>, ys: seq<B>, idx: seq<nat>) {
    && |idx| == |ys|
    && forall k :: 0 <= k < |idx| ==> idx[k] < |xs| && decode(xs[idx[k]]) == Some(ys[k])
  }

  /** The positions are listed in increasing order. */
  ghost predicate Increasing(idx: seq<nat>) {
    forall k, l :: 0 <= k < l < |idx| ==> idx[k] < idx[l]
  }

  /** Every position of `xs` that `decode` accepts is listed. */
  ghost predicate CoversAccepted<A, B>(decode: A -> Option<B>, xs: seq<A>, idx: seq<nat>) {
    forall i :: 0 <= i < |xs| && decode(xs[i]).Some? ==> i in idx
  }

  /** `idx` lists, in increasing order, exactly the positions of `xs` that
      `decode` accepts, and `ys` holds their decodings position by position. */
  ghost predicate KeptPositions<A, B>(decode: A -> Option<B>, xs: seq<A>, ys: seq<B>, idx: seq<nat>) {
    DecodesAt(decode, xs, ys, idx) && Increasing(idx) && CoversAccepted(decode, xs, idx)
  }

  /** The positions kept in the tail of a list, moved one place right. */
  lemma ShiftPositions<A, B>(decode: A -> Option<B>, xs: seq<A>, rest: seq<nat>)
    returns (shifted: seq<nat>)
    requires |xs| > 0
    requires KeptPositions(decode, xs[1..], FilterMap(decode, xs[1..]), rest)
    ensures DecodesAt(decode, xs, FilterMap(decode, xs[1..]), shifted)
    ensures Increasing(shifted)
    ensures forall k :: 0 <= k < |shifted| ==> 1 <= shifted[k]
    ensures forall i :: 1 <= i < |xs| && decode(xs[i]).Some? ==> i in shifted
  {
    shifted := seq(|rest|, k requires 0 <= k < |rest| => rest[k] + 1);
    ShiftedDecodes(decode, xs, rest, shifted);
    forall i | 1 <= i < |xs| && decode(xs[i]).Some?
      ensures i in shifted
    {
      ShiftedCovers(decode, xs, rest, shifted, i);
    }
  }

  /** Positions of the tail, moved one place right, decode the same in the whole list. */
  lemma ShiftedDecodes<A, B>(decode: A -> Option<B>, xs: seq<A>, rest: seq<nat>, shifted: seq<nat>)
    requires |xs| > 0
    requires DecodesAt(decode, xs[1..], FilterMap(decode, xs[1..]), rest)
    requires |shifted| == |rest| && forall k :: 0 <= k < |rest| ==> shifted[k] == rest[k] + 1
    ensures DecodesAt(decode, xs, FilterMap(decode, xs[1..]), shifted)
  {
    var ys := FilterMap(decode, xs[1..]);
    forall k | 0 <= k < |shifted|
      ensures shifted[k] < |xs| && decode(xs[shifted[k]]) == Some(ys[k])
    {
      assert xs[shifted[k]] == xs[1..][rest[k]];
    }
  }

  /** An accepted position past the first is listed among the shifted ones. */
  lemma ShiftedCovers<A, B>(decode: A -> Option<B>, xs: seq<A>, rest: seq<nat>, shifted: seq<nat>, i: nat)
    requires 1 <= i < |xs| && decode(xs[i]).Some?
    requires CoversAccepted(decode, xs[1..], rest)
    requires |shifted| == |rest| && forall k :: 0 <= k < |rest| ==> shifted[k] == rest[k] + 1
    ensures i in shifted
  {
    assert xs[i] == xs[1..][i - 1];
    var k :| 0 <= k < |rest| && rest[k] == i - 1;
    assert shifted[k] == i;
  }

  /** Listing position 0 in front of later positions keeps them increasing. */
  lemma PrependFirst(shifted: seq<nat>)
    requires Increasing(shifted)
    requires forall k :: 0 <= k < |shifted| ==> 1 <= shifted[k]
    ensures Increasing([0] + shifted)
  {
    var idx := [0] + shifted;
    forall k, l | 0 <= k < l < |idx|
      ensures idx[k] < idx[l]
    {
      assert idx[l] == shifted[l - 1];
      if k > 0 {
        assert idx[k] == shifted[k - 1];
      }
    }
  }

  /** A rejected first element adds no position. */
  lemma RejectedHead<A, B>(decode: A -> Option<B>, xs: seq<A>, shifted: seq<nat>)
    requires |xs| > 0 && decode(xs[0]).None?
    requires DecodesAt(decode, xs, FilterMap(decode, xs[1..]), shifted)
    requires Increasing(shifted)
    requires forall i :: 1 <= i < |xs| && decode(xs[i]).Some? ==> i in shifted
    ensures KeptPositions(decode, xs, FilterMap(decode, xs), shifted)
  {
    var ys := FilterMap(decode, xs);
    assert ys == FilterMap(decode, xs[1..]);
    assert DecodesAt(decode, xs, ys, shifted);
    assert CoversAccepted(decode, xs, shifted);
  }

  /** An accepted first element adds position 0 in front. */
  lemma AcceptedHead<A, B>(decode: A -> Option<B>, xs: seq<A>, shifted: seq<nat>)
    requires |xs| > 0 && decode(xs[0]).Some?
    requires DecodesAt(decode, xs, FilterMap(decode, xs[1..]), shifted)
    requires Increasing(shifted)
    requires forall k :: 0 <= k < |shifted| ==> 1 <= shifted[k]
    requires forall i :: 1 <= i < |xs| && decode(xs[i]).Some? ==> i in shifted
    ensures KeptPositions(decode, xs, FilterMap(decode, xs), [0] + shifted)
  {
    var ys := FilterMap(decode, xs);
    var idx := [0] + shifted;
    assert ys == [decode(xs[0]).value] + FilterMap(decode, xs[1..]);
    PrependFirst(shifted);
    forall k | 0 <= k < |idx|
      ensures idx[k] < |xs| && decode(xs[idx[k]]) == Some(ys[k])
    {
      if k > 0 {
        assert idx[k] == shifted[k - 1];
      }
    }
  }

  /** The filtered list is an order-preserving subsequence of the decodings:
      every accepted element contributes exactly one entry, in input order. */
  lemma {:induction false} FilterMapPositions<A, B>(decode: A -> Option<B>, xs: seq<A>)
    returns (idx: seq<nat>)
    ensures KeptPositions(decode, xs, FilterMap(decode, xs), idx)
    decreases |xs|
  {
    if |xs| == 0 {
      idx := [];
    } else {
      var rest := FilterMapPositions(decode, xs[1..]);
      var shifted := ShiftPositions(decode, xs, rest);
      if decode(xs[0]).Some? {
        AcceptedHead(decode, xs, shifted);
        idx := [0] + shifted;
      } else {
        RejectedHead(decode, xs, shifted);
        idx := shifted;
      }
    }
  }

  /** Filtering values that all decode, back to a list, gives that list. */
  lemma {:induction false} FilterMapAllKept<A, B>(decode: A -> Option<B>, xs: seq<A>, ys: seq<B>)
    requires |xs| == |ys|
    requires forall i :: 0 <= i < |xs| ==> decode(xs[i]) == Some(ys[i])
    ensures FilterMap(decode, xs) == ys
    decreases |xs|
  {
    if |xs| > 0 {
      FilterMapAllKept(decode, xs[1..], ys[1..]);
      assert ys == [ys[0]] + ys[1..];
    }
  }

  /** The conversion loop of `extract`, shared by entities and relationships:
      each record is decoded, skipped when `decode` rejects it, and a record
      that is not a dict aborts the whole conversion. */
  method ConvertRecords<T>(items: seq<Json>, decode: Json -> Option<T>)
    returns (r: Result<seq<T>, ExtractError>)
    ensures r.Success? <==> AllRecords(items)
    ensures r.Success? ==> r.value == FilterMap(decode, items)
    ensures r.Failure? ==> r.error == RecordNotObject
  {
    var kept: seq<T> := [];
    var i := 0;
    while i < |items|
      invariant 0 <= i <= |items|
      invariant AllRecords(items[..i])
      invariant kept == FilterMap(decode, items[..i])
    {
      if !items[i].Obj? {
        return Failure(RecordNotObject);
      }
      FilterMapSnoc(decode, items[..i], items[i]);
      assert items[..i + 1] == items[..i] + [items[i]];
      match decode(items[i]) {
        case Some(y) => kept := kept + [y];
        case None =>
      }
      i := i + 1;
    }
    assert items[..i] == items;
    return Success(kept);
  }

  /** `f"{image.width}x{image.height}"`: unpadded digits before and after a
      single `x`, reading back as the width and the height. */
  function ImageSize(width: nat, height: nat): (size: string)
    ensures var k := |Decimal(width)|;
            && k < |size| && size[k] == 'x'
            && |size| == k + 1 + |Decimal(height)|
            && AllDigits(size[..k]) && AllDigits(size[k + 1..])
            && (size[0] == '0' ==> k == 1)
            && (size[k + 1] == '0' ==> |size| == k + 2)
            && ParseDecimal(size[..k]) == width
            && ParseDecimal(size[k + 1..]) == height
  {
    var size := Decimal(width) + "x" + Decimal(height);
    DecimalRoundTrip(width);
    DecimalRoundTrip(height);
    assert size[..|Decimal(width)|] == Decimal(width);
    assert size[|Decimal(width)| + 1..] == Decimal(height);
    size
  }

  /** The size string is unambiguous: it holds exactly one `x`, and the digits
      on either side of it read back as the width and the height. */
  lemma ImageSizeReadable(width: nat, height: nat)
    ensures var size := ImageSize(width, height);
            var k := |Decimal(width)|;
            && k < |size| && size[k] == 'x'
            && ParseDecimal(size[..k]) == width
            && ParseDecimal(size[k + 1..]) == height
            && forall j :: 0 <= j < |size| && j != k ==> size[j] != 'x'
  {
    DecimalRoundTrip(width);
    DecimalRoundTrip(height);
    SplitAtX(Decimal(width), Decimal(height));
  }

  /** Two digit strings joined by `x` split back apart at the only `x`. */
  lemma SplitAtX(a: string, b: string)
    requires AllDigits(a) && AllDigits(b)
    ensures var s := a + "x" + b;
            && s[|a|] == 'x' && s[..|a|] == a && s[|a| + 1..] == b
            && forall j :: 0 <= j < |s| && j != |a| ==> s[j] != 'x'
  {
    var s := a + "x" + b;
    assert s[..|a|] == a;
    assert s[|a| + 1..] == b;
    forall j | 0 <= j < |s| && j != |a|
      ensures s[j] != 'x'
    {
      if j < |a| {
        assert s[j] == a[j];
      } else {
        assert s[j] == b[j - |a| - 1];
      }
    }
  }

  /** The `metadata` dict of an image result. */
  function ImageMetadata(fields: map<string, Json>, imageSize: string): (m: map<string, Json>)
    ensures m.Keys == {"scene_type", "urgency_level", "location_hints", "image_size"}
    ensures m["scene_type"] == Get(fields, "scene_type", Null)
    ensures m["urgency_level"] == Get(fields, "urgency_level", Null)
    ensures m["location_hints"] == Get(fields, "location_hints", Arr([]))
    ensures m["image_size"] == Str(imageSize)
  {
    map[
      "scene_type" := Get(fields, "scene_type", Null),
      "urgency_level" := Get(fields, "urgency_level", Null),
      "location_hints" := Get(fields, "location_hints", Arr([])),
      "image_size" := Str(imageSize)]
  }

  /** Turning the parsed document into an extraction result: the entity and
      relationship lists are filtered conversions of the document's lists,
      absent keys take safe defaults, and the media type is always `image`. */
  function DecodeDocument(doc: Json, uri: string, imageSize: string, now: Timestamp)
    : (r: Result<ExtractionResult, ExtractError>)
    ensures !doc.Obj? ==> r == Failure(DocumentNotObject)
    ensures r.Success? ==>
      && doc.Obj?
      && r.value.mediaUri == uri && r.value.mediaType == "image"
      && r.value.rawContent == "" && r.value.extractedAt == now
      && r.value.summary == Get(doc.fields, "summary", Str(""))
      && r.value.broadcastInfo == Get(doc.fields, "broadcast_info", Null)
      && r.value.metadata == ImageMetadata(doc.fields, imageSize)
    ensures r.Success? && "entities" in doc.fields && doc.fields["entities"].Arr? ==>
      r.value.entities == FilterMap(DecodeEntity, doc.fields["entities"].items)
    ensures r.Success? && "relationships" in doc.fields && doc.fields["relationships"].Arr? ==>
      r.value.relationships == FilterMap(DecodeRelationship, doc.fields["relationships"].items)
    ensures r.Success? && ("entities" !in doc.fields || !doc.fields["entities"].Arr?) ==>
      r.value.entities == []
    ensures r.Success? && ("relationships" !in doc.fields || !doc.fields["relationships"].Arr?) ==>
      r.value.relationships == []
    ensures doc.Obj? ==>
      (r.Success? <==> RecordSource(Get(doc.fields, "entities", Arr([])))
                       && RecordSource(Get(doc.fields, "relationships", Arr([]))))
    ensures doc.Obj? && r.Failure? ==> r.error == NotIterable || r.error == RecordNotObject
  {
    if !doc.Obj? then Failure(DocumentNotObject)
    else
      var f := doc.fields;
      var entityItems :- Records(Get(f, "entities", Arr([])));
      if !AllRecords(entityItems) then Failure(RecordNotObject)
      else
        var relationshipItems :- Records(Get(f, "relationships", Arr([])));
        if !AllRecords(relationshipItems) then Failure(RecordNotObject)
        else
          Success(ExtractionResult(
            uri, "image",
            FilterMap(DecodeEntity, entityItems),
            FilterMap(DecodeRelationship, relationshipItems),
            "",
            Get(f, "summary", Str("")),
            Get(f, "broadcast_info", Null),
            ImageMetadata(f, imageSize),
            now))
  }

  /** The reply handling of `ImageExtractor.extract`, from the model's reply
      text to the extraction result or the exception it raises. */
  method Extract(text: string, parse: string -> Option<Json>, uri: string,
                 width: nat, height: nat, now: Timestamp)
    returns (r: Result<ExtractionResult, ExtractError>)
    ensures ParseResponse(text, parse).Failure? ==> r == Failure(MalformedJson)
    ensures ParseResponse(text, parse).Success? ==>
      r == DecodeDocument(ParseResponse(text, parse).value, uri, ImageSize(width, height), now)
  {
    var doc :- ParseResponse(text, parse);
    if !doc.Obj? {
      return Failure(DocumentNotObject);
    }
    var f := doc.fields;
    var entityItems :- Records(Get(f, "entities", Arr([])));
    var entities :- ConvertRecords(entityItems, DecodeEntity);
    var relationshipItems :- Records(Get(f, "relationships", Arr([])));
    var relationships :- ConvertRecords(relationshipItems, DecodeRelationship);
    var result := NewResult(uri, "image", now);
    r := Success(result.(
      entities := entities,
      relationships := relationships,
      summary := Get(f, "summary", Str("")),
      broadcastInfo := Get(f, "broadcast_info", Null),
      metadata := ImageMetadata(f, ImageSize(width, height))));
  }

  /** Feeding a serialised extraction result back through the decoder recovers
      its entities, relationships, summary and broadcast info. */
  lemma DecodeSerialisedResult(x: ExtractionResult, uri: string, imageSize: string, now: Timestamp)
    ensures var r := DecodeDocument(ResultToDict(x), uri, imageSize, now);
            && r.Success?
            && r.value.entities == x.entities
            && r.value.relationships == x.relationships
            && r.value.summary == x.summary
            && r.value.broadcastInfo == x.broadcastInfo
  {
    var d := ResultToDict(x);
    EntityListRoundTrip(d.fields["entities"].items, x.entities);
    RelationshipListRoundTrip(d.fields["relationships"].items, x.relationships);
  }

  /** Serialised entities are all records and all decode back to themselves. */
  lemma EntityListRoundTrip(ds: seq<Json>, es: seq<ExtractedEntity>)
    requires |ds| == |es| && forall i :: 0 <= i < |es| ==> ds[i] == EntityToDict(es[i])
    ensures AllRecords(ds) && FilterMap(DecodeEntity, ds) == es
  {
    forall i | 0 <= i < |ds|
      ensures DecodeEntity(ds[i]) == Some(es[i])
    {
      EntityRoundTrip(es[i]);
    }
    FilterMapAllKept(DecodeEntity, ds, es);
  }

  /** Serialised relationships are all records and all decode back to themselves. */
  lemma RelationshipListRoundTrip(ds: seq<Json>, rs: seq<ExtractedRelationship>)
    requires |ds| == |rs| && forall i :: 0 <= i < |rs| ==> ds[i] == RelationshipToDict(rs[i])
    ensures AllRecords(ds) && FilterMap(DecodeRelationship, ds) == rs
  {
    forall i | 0 <= i < |ds|
      ensures DecodeRelationship(ds[i]) == Some(rs[i])
    {
      RelationshipRoundTrip(rs[i]);
    }
    FilterMapAllKept(DecodeRelationship, ds, rs);
  }
}

=== FILE: posix_path.dfy ===
/** The `os.path` functions the storage service uses, with POSIX separators:
    `basename` and `splitext`. */
module PosixPath {

  /** `s.rfind(c, 0, n)`: the index of the last `c` among the first `n`
      characters of `s`, or -1. */
  function LastIndexBefore(s: string, c: char, n: nat): (r: int)
    requires n <= |s|
    ensures -1 <= r < n
    ensures r >= 0 ==> s[r] == c
    ensures forall j :: r < j < n ==> s[j] != c
    decreases n
  {
    if n == 0 then -1
    else if s[n - 1] == c then n - 1
    else LastIndexBefore(s, c, n - 1)
  }

  /** `s.rfind(c)`: the index of the last `c` in `s`, or -1. */
  function LastIndexOf(s: string, c: char): (r: int)
    ensures -1 <= r < |s|
    ensures r >= 0 ==> s[r] == c
    ensures forall j :: r < j < |s| ==> s[j] != c
  {
    LastIndexBefore(s, c, |s|)
  }

  /** The postcondition of `LastIndexBefore` pins its result down. */
  lemma {:induction false} LastIndexBeforeUnique(s: string, c: char, n: nat, r: int)
    requires n <= |s| && -1 <= r < n
    requires r >= 0 ==> s[r] == c
    requires forall j :: r < j < n ==> s[j] != c
    ensures LastIndexBefore(s, c, n) == r
    decreases n
  {
    if n > 0 && s[n - 1] != c {
      LastIndexBeforeUnique(s, c, n - 1, r);
    }
  }

  /** The postcondition of `LastIndexOf` pins its result down. */
  lemma LastIndexUnique(s: string, c: char, r: int)
    requires -1 <= r < |s|
    requires r >= 0 ==> s[r] == c
    requires forall j :: r < j < |s| ==> s[j] != c
    ensures LastIndexOf(s, c) == r
  {
    LastIndexBeforeUnique(s, c, |s|, r);
  }

  /** `os.path.basename(p)`: everything after the last `/`. */
  function Basename(p: string): (r: string)
    ensures '/' !in r
    ensures |r| <= |p| && p[|p| - |r|..] == r
    ensures |r| < |p| ==> p[|p| - |r| - 1] == '/'
  {
    p[LastIndexOf(p, '/') + 1..]
  }

  /** Every character of `p` from `lo` up to `hi` is a dot. */
  predicate DotsBetween(p: string, lo: int, hi: int) {
    forall i :: lo <= i < hi && 0 <= i < |p| ==> p[i] == '.'
  }

  /** Where `os.path.splitext(p)` cuts `p`: at the last dot of the last path
      component, unless everything in that component before the dot is dots
      too (so `.bashrc` and `..` have no extension); at the end otherwise. */
  function ExtStart(p: string): (k: nat)
    ensures k <= |p|
    ensures k < |p| ==> p[k] == '.'
    ensures forall j :: k < j < |p| ==> p[j] != '.' && p[j] != '/'
    ensures k < |p| ==> exists i :: LastIndexOf(p, '/') < i < k && p[i] != '.'
    ensures k == |p| ==> forall i, j :: LastIndexOf(p, '/') < i < j < |p| && p[j] == '.' ==> p[i] == '.'
  {
    var sep := LastIndexOf(p, '/');
    var dot := LastIndexOf(p, '.');
    if dot > sep && !DotsBetween(p, sep + 1, dot) then dot else |p|
  }

  /** `os.path.splitext(p)`: a root and an extension that is empty or a single
      dot followed by neither dots nor separators. */
  function SplitExt(p: string): (r: (string, string))
    ensures r.0 + r.1 == p
    ensures r.1 == "" || r.1[0] == '.'
    ensures forall i :: 0 < i < |r.1| ==> r.1[i] != '.'
    ensures forall i :: 0 <= i < |r.1| ==> r.1[i] != '/'
    ensures r.1 != "" ==> exists i :: LastIndexOf(p, '/') < i < |r.0| && p[i] != '.'
    ensures r.1 == "" ==> forall i, j :: LastIndexOf(p, '/') < i < j < |p| && p[j] == '.' ==> p[i] == '.'
  {
    var k := ExtStart(p);
    (p[..k], p[k..])
  }

  /** The extension `splitext` reports: a suffix of the path that is empty
      exactly when the last component has no dot after a non-dot. */
  function Ext(p: string): (e: string)
    ensures |e| <= |p| && p[|p| - |e|..] == e
    ensures e == "" || e[0] == '.'
    ensures forall i :: 0 < i < |e| ==> e[i] != '.' && e[i] != '/'
    ensures e != "" ==> exists i :: LastIndexOf(p, '/') < i < |p| - |e| && p[i] != '.'
    ensures e == "" ==> forall i, j :: LastIndexOf(p, '/') < i < j < |p| && p[j] == '.' ==> p[i] == '.'
  {
    SplitExt(p).1
  }

  /** The contract of `ExtStart` pins the cut down: any position that meets
      it is where `splitext` cuts. */
  lemma ExtStartUnique(p: string, k: nat)
    requires k <= |p|
    requires k < |p| ==> p[k] == '.'
    requires forall j :: k < j < |p| ==> p[j] != '.' && p[j] != '/'
    requires k < |p| ==> exists i :: LastIndexOf(p, '/') < i < k && p[i] != '.'
    requires k == |p| ==> forall i, j :: LastIndexOf(p, '/') < i < j < |p| && p[j] == '.' ==> p[i] == '.'
    ensures ExtStart(p) == k
  {
  }

  /** The extension of a path is the extension of its last component. */
  lemma ExtOfBasename(p: string)
    ensures Ext(p) == Ext(Basename(p))
  {
    var k := LastIndexOf(p, '/') + 1;
    var b := Basename(p);
    BasenameExtStart(p);
    assert b[ExtStart(b)..] == p[ExtStart(p)..] by {
      assert b == p[k..];
    }
  }

  /** `splitext` cuts the last component where it cuts the whole path. */
  lemma BasenameExtStart(p: string)
    ensures ExtStart(Basename(p)) + LastIndexOf(p, '/') + 1 == ExtStart(p)
  {
    var k := LastIndexOf(p, '/') + 1;
    var b := Basename(p);
    var dot := LastIndexOf(p, '.');
    assert b == p[k..];
    LastIndexUnique(b, '/', -1);
    if dot >= k {
      LastIndexUnique(b, '.', dot - k);
      assert DotsBetween(b, 0, dot - k) == DotsBetween(p, k, dot) by {
        forall i | 0 <= i < dot - k
          ensures b[i] == p[k + i]
        {
        }
      }
    } else {
      LastIndexUnique(b, '.', -1);
    }
  }

  /** The last component of `dir + "/" + name` is `name`. */
  lemma BasenameOfJoin(dir: string, name: string)
    requires '/' !in name
    ensures Basename(dir + "/" + name) == name
  {
    var p := dir + "/" + name;
    LastIndexUnique(p, '/', |dir|);
    assert p[|dir| + 1..] == name;
  }

  /** The extension of `dir + "/" + name` is the extension of `name`. */
  lemma ExtOfJoin(dir: string, name: string)
    requires '/' !in name
    ensures Ext(dir + "/" + name) == Ext(name)
  {
    ExtOfBasename(dir + "/" + name);
    BasenameOfJoin(dir, name);
  }

  /** The extension starts at the last dot when neither a dot nor a
      separator comes right before it, and no separator comes after it. */
  lemma ExtAt(p: string, dot: nat)
    requires 0 < dot < |p| && p[dot] == '.' && p[dot - 1] != '.' && p[dot - 1] != '/'
    requires forall j :: dot < j < |p| ==> p[j] != '.' && p[j] != '/'
    ensures Ext(p) == p[dot..]
  {
    assert ExtStart(p) == dot by {
      LastIndexUnique(p, '.', dot);
      var sep := LastIndexOf(p, '/');
      assert sep < dot - 1 by {
        assert p[dot] != '/';
      }
      assert !DotsBetween(p, sep + 1, dot);
    }
  }

  /** A path ending in a dot and a word without dots or separators has that
      dotted word as its extension, when the dot follows a component
      character other than a dot. */
  lemma ExtOfDotted(stem: string, ext: string)
    requires '/' !in ext && '.' !in ext
    requires |stem| > 0 && stem[|stem| - 1] != '/' && stem[|stem| - 1] != '.'
    ensures Ext(stem + "." + ext) == "." + ext
  {
    var p := stem + "." + ext;
    var dot := |stem|;
    assert p[dot..] == "." + ext;
    forall j | dot < j < |p|
      ensures p[j] != '.' && p[j] != '/'
    {
      assert p[j] == ext[j - dot - 1];
    }
    ExtAt(p, dot);
  }

  /** Putting a dot-free stem and a separator character in front of a file name
      keeps its extension, and gives a dotted name an extension even when it
      only had leading dots. */
  lemma ExtOfStemmed(stem: string, mark: char, name: string)
    requires '/' !in stem && '.' !in stem && mark != '/' && mark != '.' && '/' !in name
    ensures Ext(name) != "" ==> Ext(stem + [mark] + name) == Ext(name)
    ensures '.' !in name ==> Ext(stem + [mark] + name) == ""
  {
    var p := stem + [mark] + name;
    var m := |stem| + 1;
    var dn := LastIndexOf(name, '.');
    if dn >= 0 {
      assert ExtStart(p) == m + dn by {
        LastIndexUnique(p, '/', -1);
        forall j | m + dn < j < |p|
          ensures p[j] != '.'
        {
          assert p[j] == name[j - m];
        }
        LastIndexUnique(p, '.', m + dn);
        assert p[|stem|] == mark;
      }
      assert p[m + dn..] == name[dn..];
      LastIndexUnique(name, '/', -1);
    } else {
      assert ExtStart(p) == |p| by {
        LastIndexUnique(p, '.', -1);
      }
    }
  }
}

=== FILE: py_json.dfy ===
/** The values `json.loads` produces, as an abstract datatype. Parsing itself is
    not modelled: callers receive an already-parsed value or a parse failure. */
module PyJson {

  /** A parsed JSON document. Numbers are opaque: the model only copies and
      defaults them, it never computes with them. */
  datatype Json =
    | Null
    | Bool(b: bool)
    | Num(n: real)
    | Str(s: string)
    | Arr(items: seq<Json>)
    | Obj(fields: map<string, Json>)

  /** Python's `d.get(key, default)` on a parsed object. */
  function Get(fields: map<string, Json>, key: string, default: Json): (r: Json)
    ensures key in fields ==> r == fields[key]
    ensures key !in fields ==> r == default
  {
    if key in fields then fields[key] else default
  }
}

=== FILE: str_ops.dfy ===
/** The Python `str` operations the extraction and storage code relies on:
    `startswith`, `in`, `strip`, slicing, `lower`, `replace` and the decimal
    rendering of an `int` inside an f-string. */
module StrOps {

  /** `s.startswith(prefix)`: `s` is at least as long as `prefix` and agrees
      with it character by character. */
  function StartsWith(s: string, prefix: string): (b: bool)
    ensures b <==> |prefix| <= |s| && forall i :: 0 <= i < |prefix| ==> s[i] == prefix[i]
    ensures b ==> s == prefix + s[|prefix|..]
  {
    |prefix| <= |s| && s[..|prefix|] == prefix
  }

  /** `sub` occurs in `s` starting at index `i`. */
  ghost predicate OccursAt(s: string, sub: string, i: int) {
    0 <= i && i + |sub| <= |s| && s[i..i + |sub|] == sub
  }

  /** `sub in s` for two strings, scanning from the left. */
  predicate Contains(s: string, sub: string)
    decreases |s|
  {
    StartsWith(s, sub) || (|s| > 0 && Contains(s[1..], sub))
  }

  /** `Contains` holds exactly when `sub` occurs somewhere in `s`. */
  lemma {:induction false} ContainsOccurs(s: string, sub: string)
    ensures Contains(s, sub) <==> exists i :: OccursAt(s, sub, i)
    decreases |s|
  {
    if StartsWith(s, sub) {
      assert OccursAt(s, sub, 0);
    } else if |s| > 0 {
      ContainsOccurs(s[1..], sub);
      if Contains(s[1..], sub) {
        var i :| OccursAt(s[1..], sub, i);
        assert s[i + 1..i + 1 + |sub|] == s[1..][i..i + |sub|];
        assert OccursAt(s, sub, i + 1);
      }
      if i :| OccursAt(s, sub, i) {
        assert i != 0;
        assert s[1..][i - 1..i - 1 + |sub|] == s[i..i + |sub|];
        assert OccursAt(s[1..], sub, i - 1);
      }
    }
  }

  /** The characters `str.isspace` accepts, which `str.strip()` removes. */
  predicate IsSpace(c: char) {
    || ('\t' <= c <= '\r')
    || ('\U{1C}' <= c <= '\U{1F}')
    || c == ' '
    || c == '\U{85}'
    || c == '\U{A0}'
    || c == '\U{1680}'
    || ('\U{2000}' <= c <= '\U{200A}')
    || c == '\U{2028}'
    || c == '\U{2029}'
    || c == '\U{202F}'
    || c == '\U{205F}'
    || c == '\U{3000}'
  }

  /** Every character of `s` is whitespace. */
  predicate AllSpace(s: string) {
    forall i :: 0 <= i < |s| ==> IsSpace(s[i])
  }

  /** `s.lstrip()`: drops the leading whitespace and nothing else. */
  function TrimStart(s: string): (r: string)
    ensures |r| <= |s| && r == s[|s| - |r|..]
    ensures AllSpace(s[..|s| - |r|])
    ensures |r| > 0 ==> !IsSpace(r[0])
    decreases |s|
  {
    if |s| > 0 && IsSpace(s[0]) then TrimStart(s[1..]) else s
  }

  /** `s.rstrip()`: drops the trailing whitespace and nothing else. */
  function TrimEnd(s: string): (r: string)
    ensures |r| <= |s| && r == s[..|r|]
    ensures AllSpace(s[|r|..])
    ensures |r| > 0 ==> !IsSpace(r[|r| - 1])
    decreases |s|
  {
    if |s| > 0 && IsSpace(s[|s| - 1]) then TrimEnd(s[..|s| - 1]) else s
  }

  /** `s.strip()`: the longest infix of `s` that neither starts nor ends with
      whitespace, all of whose surroundings are whitespace. */
  function Strip(s: string): (r: string)
    ensures |r| <= |s|
    ensures exists lead, trail {:trigger AllSpace(lead), AllSpace(trail)} :: s == lead + r + trail && AllSpace(lead) && AllSpace(trail)
    ensures |r| > 0 ==> !IsSpace(r[0]) && !IsSpace(r[|r| - 1])
  {
    var r := TrimEnd(TrimStart(s));
    StripSurroundings(s);
    StripEdges(s);
    r
  }

  /** What `lstrip` then `rstrip` keep sits between two whitespace runs. */
  lemma StripSurroundings(s: string)
    ensures var r := TrimEnd(TrimStart(s));
            exists lead, trail {:trigger AllSpace(lead), AllSpace(trail)} :: s == lead + r + trail && AllSpace(lead) && AllSpace(trail)
  {
    var t := TrimStart(s);
    var r := TrimEnd(t);
    LeadSplit(s);
    TrailSplit(t);
    PaddedJoin(s, s[..|s| - |t|], t, r, t[|r|..]);
  }

  /** `lstrip` cuts a string into a whitespace lead and what it keeps. */
  lemma LeadSplit(s: string)
    ensures var t := TrimStart(s);
            s == s[..|s| - |t|] + t && AllSpace(s[..|s| - |t|])
  {
    var t := TrimStart(s);
    assert t == s[|s| - |t|..];
  }

  /** `rstrip` cuts a string into what it keeps and a whitespace trail. */
  lemma TrailSplit(t: string)
    ensures var r := TrimEnd(t);
            t == r + t[|r|..] && AllSpace(t[|r|..])
  {
    var r := TrimEnd(t);
    assert r == t[..|r|];
  }

  /** A lead and a trail of whitespace around `r` witness its padding. */
  lemma PaddedJoin(s: string, lead: string, t: string, r: string, trail: string)
    requires s == lead + t && t == r + trail && AllSpace(lead) && AllSpace(trail)
    ensures exists lead, trail {:trigger AllSpace(lead), AllSpace(trail)} ::
              s == lead + r + trail && AllSpace(lead) && AllSpace(trail)
  {
    assert s == lead + r + trail;
  }

  /** What `lstrip` then `rstrip` keep neither starts nor ends with whitespace. */
  lemma StripEdges(s: string)
    ensures var r := TrimEnd(TrimStart(s));
            |r| > 0 ==> !IsSpace(r[0]) && !IsSpace(r[|r| - 1])
  {
    var t := TrimStart(s);
    var r := TrimEnd(t);
    if |r| > 0 {
      assert r[0] == t[0];
    }
  }

  /** `lstrip()` removes exactly a whitespace lead in front of a string that
      does not itself start with whitespace. */
  lemma {:induction false} TrimStartPadded(lead: string, rest: string)
    requires AllSpace(lead)
    requires |rest| == 0 || !IsSpace(rest[0])
    ensures TrimStart(lead + rest) == rest
    decreases |lead|
  {
    if |lead| > 0 {
      assert (lead + rest)[1..] == lead[1..] + rest;
      TrimStartPadded(lead[1..], rest);
    } else {
      assert lead + rest == rest;
    }
  }

  /** `rstrip()` removes exactly a whitespace trail behind a string that does
      not itself end with whitespace. */
  lemma {:induction false} TrimEndPadded(rest: string, trail: string)
    requires AllSpace(trail)
    requires |rest| == 0 || !IsSpace(rest[|rest| - 1])
    ensures TrimEnd(rest + trail) == rest
    decreases |trail|
  {
    if |trail| > 0 {
      assert (rest + trail)[..|rest + trail| - 1] == rest + trail[..|trail| - 1];
      TrimEndPadded(rest, trail[..|trail| - 1]);
    } else {
      assert rest + trail == rest;
    }
  }

  /** A string that neither starts nor ends with whitespace. */
  predicate Unpadded(core: string) {
    |core| == 0 || (!IsSpace(core[0]) && !IsSpace(core[|core| - 1]))
  }

  /** `strip()` removes exactly the whitespace padding around an unpadded core. */
  lemma StripPadded(lead: string, core: string, trail: string)
    requires AllSpace(lead) && AllSpace(trail) && Unpadded(core)
    ensures Strip(lead + core + trail) == core
  {
    if |core| > 0 {
      assert lead + core + trail == lead + (core + trail);
      TrimStartPadded(lead, core + trail);
      TrimEndPadded(core, trail);
    } else {
      assert lead + core + trail == (lead + trail) + "";
      TrimStartPadded(lead + trail, "");
    }
  }

  /** Python's normalisation of a slice bound: a negative bound counts from
      the end, then the bound is clamped into `[0, n]`. */
  function ClampIndex(i: int, n: nat): (k: nat)
    ensures k <= n
    ensures 0 <= i <= n ==> k == i
    ensures i < 0 && 0 <= i + n ==> k == n + i
    ensures i > n ==> k == n
    ensures i + n < 0 ==> k == 0
  {
    if i < 0 then (if i + n < 0 then 0 else i + n)
    else if i > n then n
    else i
  }

  /** `s[start:stop]`: never fails, an empty or inverted range gives `""`. */
  function Slice(s: string, start: int, stop: int): (r: string)
    ensures |r| <= |s|
    ensures 0 <= start && stop < 0 && start - stop <= |s| ==> r == s[start..|s| + stop]
    ensures 0 <= start && stop < 0 && start - stop >= |s| ==> r == []
  {
    var i := ClampIndex(start, |s|);
    var j := ClampIndex(stop, |s|);
    if i < j then s[i..j] else []
  }

  /** `c.lower()` for ASCII letters. */
  function LowerChar(c: char): char {
    if 'A' <= c <= 'Z' then (c as int + 32) as char else c
  }

  /** `s.lower()`, restricted to the ASCII letters. */
  function Lower(s: string): (r: string)
    ensures |r| == |s|
    ensures forall i :: 0 <= i < |s| ==> r[i] == LowerChar(s[i])
  {
    seq(|s|, i requires 0 <= i < |s| => LowerChar(s[i]))
  }

  /** Lower-casing cannot introduce a character that is not an upper-case letter's image. */
  lemma LowerKeepsAbsent(s: string, c: char)
    requires !('a' <= c <= 'z') && c !in s
    ensures c !in Lower(s)
  {
    var r := Lower(s);
    forall i | 0 <= i < |r|
      ensures r[i] != c
    {
      assert r[i] == LowerChar(s[i]) && s[i] != c;
    }
  }

  /** Lower-casing an already lowered tail changes nothing once the whole is lowered. */
  lemma LowerAbsorbs(a: string, s: string)
    ensures Lower(a + Lower(s)) == Lower(a + s)
  {
    var l := a + Lower(s);
    var r := a + s;
    forall i | 0 <= i < |r|
      ensures Lower(l)[i] == Lower(r)[i]
    {
      if i < |a| {
        assert l[i] == r[i];
      } else {
        assert l[i] == LowerChar(s[i - |a|]) && r[i] == s[i - |a|];
      }
    }
  }

  /** `s.replace(pattern, replacement)`: every non-overlapping occurrence of `pattern`, found
      scanning from the left, is replaced. */
  function ReplaceAll(s: string, pattern: string, replacement: string): (r: string)
    requires |pattern| > 0
    ensures !Contains(s, pattern) ==> r == s
    decreases |s|
  {
    if |s| < |pattern| then s
    else if s[..|pattern|] == pattern then replacement + ReplaceAll(s[|pattern|..], pattern, replacement)
    else [s[0]] + ReplaceAll(s[1..], pattern, replacement)
  }

  /** An occurrence of `pattern` at the very front is the first one replaced. */
  lemma ReplaceLeading(pattern: string, s: string, replacement: string)
    requires |pattern| > 0
    ensures ReplaceAll(pattern + s, pattern, replacement) == replacement + ReplaceAll(s, pattern, replacement)
  {
    assert (pattern + s)[..|pattern|] == pattern;
    assert (pattern + s)[|pattern|..] == s;
  }

  /** The decimal digit for `d`. */
  function Digit(d: nat): char
    requires d < 10
  {
    "0123456789"[d]
  }

  /** The value of a decimal digit character. */
  function DigitValue(c: char): nat {
    if '0' <= c <= '9' then c as int - '0' as int else 0
  }

  predicate AllDigits(s: string) {
    forall i :: 0 <= i < |s| ==> '0' <= s[i] <= '9'
  }

  /** `str(n)` (and `f"{n}"`) for a non-negative `int`: non-empty decimal
      digits with no leading zero. */
  function Decimal(n: nat): (r: string)
    ensures |r| > 0 && AllDigits(r)
    ensures r[0] == '0' ==> n == 0
    decreases n
  {
    if n < 10 then [Digit(n)] else Decimal(n / 10) + [Digit(n % 10)]
  }

  /** `int(s)` for a string of decimal digits. */
  function ParseDecimal(s: string): nat
    decreases |s|
  {
    if |s| == 0 then 0 else ParseDecimal(s[..|s| - 1]) * 10 + DigitValue(s[|s| - 1])
  }

  /** Rendering a number and reading it back gives the number. */
  lemma {:induction false} DecimalRoundTrip(n: nat)
    ensures ParseDecimal(Decimal(n)) == n
    decreases n
  {
    if n >= 10 {
      DecimalRoundTrip(n / 10);
      var r := Decimal(n);
      assert r[..|r| - 1] == Decimal(n / 10);
    }
  }
}

=== FILE: wrappers.dfy ===
/** Failure-compatible wrappers shared by every module of the model. */
module Wrappers {

  /** A value that may be absent (Python's `None`). */
  datatype Option<+T> = None | Some(value: T)

  /** The outcome of an operation that may raise: a value, or the error it raised. */
  datatype Result<+T, +E> = Success(value: T) | Failure(error: E) {

    predicate IsFailure() {
      Failure?
    }

    function PropagateFailure<U>(): Result<U, E>
      requires Failure?
    {
      Failure(error)
    }

    function Extract(): T
      requires Success?
    {
      value
    }
  }
}
